=== FILE: README.md ===
# nentrytask user core in Dafny

A functional model of the user-management core of nentrytask, a Go service that
registers users, logs them in, and lets them change their nickname and profile image.
The model covers:

- **The consistency orchestrator** (`userUsecase`). It composes the authoritative
  relational store with a Redis cache: which store is touched, in what order, and which
  failure is swallowed or surfaced.
- **The store adapters.** Redis, in-memory and MySQL, plus the alternative combined
  repository in `temprepo` with read-through repopulation.
- **The credential gate.** The bearer-header parsing, the token claim set, the
  subject extraction and the ownership middleware.
- **The two string helpers** of `pkg/helper`.

Every store is an immutable map, threaded through pure state-transition functions:

- `MysqlRepo.Table` holds rows by id and the auto-increment counter.
- `RedisRepo.Cache` maps the decimal text of an id to a JSON payload.
- `MemoryRepo.Entries` maps an int64 id to a payload.

Whether a given statement or command fails (prepare, exec, `LastInsertId`, GET, SET,
DEL) is a parameter of each call. JSON encoding is the identity on `User`. A payload
that does not decode is the separate value `Malformed`. Go's `(*User, error)` pair is
`Models.Reply`, because one repository returns a populated user together with an error.
The JWT library's `Parse` and bcrypt's password comparison are oracles passed in as
function parameters. The clock is the parameter `now`.

Modules, one per source file or concept:

- `Wrappers`, `Models`
- `Decimal` (`strconv`)
- `Text` (`strings`)
- `MysqlRepo`, `RedisRepo`, `MemoryRepo`
- `TwoStores` (the shared two-store state and its invariants `Consistent` and `Mirrors`)
- `Usecase`, `TempRepo`
- `Auth`, `Middlewares`, `Helper`

The model follows the schema and the code on these points:

- **Usernames are not unique.** The schema (cmd/seed/main.go:119) puts a plain
  `index(username)` on the table, not a unique one. So `MysqlRepo.Store` never refuses
  a duplicate username, and `MysqlRepo.GetByUsername` answers with one of the matching
  rows.
- **Usernames match under the column's collation.** The column declares no collation,
  so the server's default applies, and that default ignores letter case. The lookups
  take the collation as a key function `fold`: two names match when their keys are
  equal.
- **`Usecase.GetByID` does not repopulate the cache on a miss.** Only the `temprepo`
  repository does.
- **Updates touch the cache before the table, and fail when the id is not cached.**
  A failed table write therefore leaves the cache ahead of the table
  (`Usecase.FailedTableUpdateLeavesCacheAhead`).
- **The id column is a signed 32-bit `int`**, not a 64-bit one, so the counter stops
  at 2147483647.

`Auth.TokenValidFromID` (pkg/auth/auth.go:43-60) is a predicate without a contract of
its own. `Middlewares.Authenticate` states what it decides.

## Model

| member | source | states |
|---|---|---|
| Usecase.Store | internal/user/usecase/user_usecase.go:23-36 | The call succeeds exactly when the table insert does; a failed insert is returned and the cache is never written; on success the row and the caller's user carry the id just assigned, and the cache receives that same user unless its SET failed, which is swallowed; no existing row and no cache entry of another id changes |
| Usecase.GetByID | internal/user/usecase/user_usecase.go:38-52 | No store is written (no repopulation); a cache hit is returned as is without consulting the table; on any cache error the table's row is returned iff the table has it; an error comes with the zero user only when both stores fail |
| Usecase.GetByUsername | internal/user/usecase/user_usecase.go:54-56 | Answered by the table alone, names compared under the column's collation: a success is a matching row; on a well-formed table it succeeds iff a matching row exists, and the lowest-id matching row is the answer; a failure carries the zero user |
| Usecase.UpdateNickname | internal/user/usecase/user_usecase.go:58-71 | Succeeds iff both cache commands succeed, the cache holds the id, and the table update succeeds; a cache failure leaves both stores untouched; the table is written only after the cache; once the cache update succeeded it holds the new nickname even when the table then fails; no other row changes, nor, for an aligned cache, any other entry |
| Usecase.UpdateProfileImage | internal/user/usecase/user_usecase.go:73-86 | The same order, outcomes and frame as UpdateNickname, for the profile image |
| Usecase.ValidateUserPassword | internal/user/usecase/user_usecase.go:88-99 | A success is a row matching the username whose stored hash the password check accepts; the first matching row decides: its user when the check accepts, the check's own error with the zero user when it rejects; a username matching no row gives "no rows"; a failed username query is an error with the zero user, and success needs the query to have run; every failure carries the zero user |
| Usecase.StorePreservesConsistency | internal/user/usecase/user_usecase.go:23-36 | Store keeps the two stores consistent (well-formed table, aligned cache, no cache entry without a row) and never puts the cache ahead of the table |
| Usecase.UpdateNicknamePreservesConsistency | internal/user/usecase/user_usecase.go:58-71 | UpdateNickname keeps the stores consistent, and after a success the cache still mirrors the table |
| Usecase.UpdateProfileImagePreservesConsistency | internal/user/usecase/user_usecase.go:73-86 | The same for UpdateProfileImage |
| Usecase.StoreThenGetByID | internal/user/usecase/user_usecase.go:23-52 | A created user reads back by its new id with its fields, whether the cache write failed and whichever store answers |
| Usecase.UpdateNicknameThenGetByID | internal/user/usecase/user_usecase.go:38-71 | After a successful nickname update, any read that does not fail in both stores gives the new nickname |
| Usecase.FailedTableUpdateLeavesCacheAhead | internal/user/usecase/user_usecase_test.go:187-197 | Cache update succeeds, table update fails: an error is reported, the table is unchanged, a cache-served read returns the new nickname, and the cache no longer mirrors the table |
| Usecase.GetByUsernameIgnoresCache | internal/user/usecase/user_usecase.go:54-56 | Username lookups give the same answer whatever the cache holds |
| Usecase.StoreThenValidateUserPassword | internal/user/usecase/user_usecase.go:23-99 | A user registered under a username that matches no earlier row under the collation, with a password the check accepts, logs in as the stored user with its new id, whether or not the cache write failed |
| Usecase.StoreThenWrongPassword | internal/user/usecase/user_usecase.go:88-99 | For such a registered user, a password bcrypt rejects returns its mismatch error unchanged, with the zero user |
| RedisRepo.Store | internal/user/repository/redis_user.go:35-53 | Succeeds iff SET succeeds; a failed SET changes nothing; on success the user is cached under its own id; entries for every other id are unchanged; alignment is preserved |
| RedisRepo.GetByID | internal/user/repository/redis_user.go:55-75 | Succeeds iff GET succeeds and the entry exists and decodes, returning the cached user; a miss, a failed command and a bad payload all give the zero user with an error |
| RedisRepo.GetByUsername | internal/user/repository/redis_user.go:77-79 | Always the zero user and no error |
| RedisRepo.UpdateNickname | internal/user/repository/redis_user.go:81-96 | Succeeds iff the id is cached with a decodable user and both commands succeed; a failure writes nothing; an absent key is a miss error; on success only that entry changes, and only in its nickname |
| RedisRepo.UpdateProfileImage | internal/user/repository/redis_user.go:98-109 | The same as UpdateNickname, for the profile image only |
| RedisRepo.KeyInjective | internal/user/repository/redis_user.go:47 | Distinct ids have distinct cache keys |
| RedisRepo.StoreThenGetByID | internal/user/repository/redis_user.go:35-75 | What Store wrote, GetByID reads back with no error |
| RedisRepo.StoreKeyExample | internal/user/repository/redis_user_test.go:18 | User 1 is stored under the key "1" |
| RedisRepo.UpdateThenGetByID | internal/user/repository/redis_user.go:55-109 | After a nickname or profile-image update of a cached user, GetByID gives that user with the new value |
| MemoryRepo.Store | internal/user/repository/memory_user.go:23-31 | Never fails; puts the user at its id, overwriting; the key set grows by that id only and every other entry is unchanged |
| MemoryRepo.GetByID | internal/user/repository/memory_user.go:32-43 | An error iff the id is absent, and then the zero user with "ID NOT FOUND"; a present entry gives its user, or the zero user with no error when it does not decode |
| MemoryRepo.GetByUsername | internal/user/repository/memory_user.go:44-46 | Always the zero user and no error |
| MemoryRepo.UpdateNickname | internal/user/repository/memory_user.go:47-61 | An error iff the id is absent, leaving the map unchanged; a decodable entry changes in its nickname only; an undecodable entry makes the write land under id 0 |
| MemoryRepo.UpdateProfileImage | internal/user/repository/memory_user.go:62-75 | The same as UpdateNickname, for the profile image |
| MemoryRepo.StoreThenGetByID | internal/user/repository/memory_user.go:23-43 | After Store(u), GetByID(u.ID) gives u and no error |
| MemoryRepo.StoreThenUpdateNickname | internal/user/repository/memory_user.go:23-61 | Updating a stored user's nickname changes that field only, as a later lookup shows |
| MemoryRepo.StoreThenUpdateProfileImage | internal/user/repository/memory_user.go:23-75 | Updating a stored user's profile image changes that field only, as a later lookup shows |
| MysqlRepo.Store | internal/user/repository/mysql_user.go:24-43 | Succeeds iff no statement fails and the counter is in range; on success the caller's user gets the fresh id, its row is added and the counter advances; any failure leaves the caller's user as it was; a prepare or exec failure writes nothing; at most the one new row appears and existing rows never change; well-formedness is preserved |
| MysqlRepo.GetByID | internal/user/repository/mysql_user.go:45-53 | Succeeds iff the query runs and the row exists, returning that row (which carries the id); otherwise the zero user, with "no rows" when the row is absent |
| MysqlRepo.FirstWithName | internal/user/repository/mysql_user.go:57-58 | Finds the lowest id in a range whose row matches the username under the collation, or reports that none matches |
| MysqlRepo.GetByUsername | internal/user/repository/mysql_user.go:55-63 | A success is a row matching the username under the collation; on a well-formed table it succeeds iff a matching row exists, and the lowest-id matching row is the answer; otherwise the zero user, with "no rows" when the query ran |
| MysqlRepo.UpdateNickname | internal/user/repository/mysql_user.go:65-79 | An error iff a statement fails, and then nothing changes; on success only row id changes and only in its nickname; an absent id is no error and no change |
| MysqlRepo.UpdateProfileImage | internal/user/repository/mysql_user.go:81-94 | The same as UpdateNickname, for the profile image |
| MysqlRepo.StoreThenGetByID | internal/user/repository/mysql_user.go:24-53 | A stored user reads back by its new id with the fields it was stored with |
| MysqlRepo.StoreAssignsFreshIds | internal/user/repository/mysql_user.go:36-41 | Assigned ids are never reused: each is new to the table and two successive stores get different ids |
| MysqlRepo.UpdateThenGetByID | internal/user/repository/mysql_user.go:45-94 | After a successful nickname or profile-image update of an existing row, GetByID gives the row with the new value and every other field as before |
| MysqlRepo.StoreThenGetByUsername | internal/user/repository/mysql_user.go:24-63 | A user stored under a username that matches no existing row under the collation is exactly what a lookup by that username returns |
| MysqlRepo.GetByUsernameUnderCollation | internal/user/repository/mysql_user.go:55-63 | Two names with the same collation key find the same row, so with a case-insensitive collation "ALICE" finds alice |
| MysqlRepo.FirstWithNameUnderCollation | internal/user/repository/mysql_user.go:57-58 | The search depends on the name only through its collation key |
| TempRepo.Store | internal/user/temprepo/user_repository.go:28-46 | Writes only the table, with the same outcomes as the relational Store; the cache is untouched and no existing row changes |
| TempRepo.SetUserToCache | internal/user/temprepo/user_repository.go:141-155 | Succeeds iff SET succeeds; the user is then cached under its id; entries for every other id are unchanged |
| TempRepo.SetUserToCacheIfExist | internal/user/temprepo/user_repository.go:157-175 | Succeeds iff GET and SET succeed and, for an existing key, DEL too; success leaves the user cached whether or not the key existed; a failed GET or DEL changes nothing; a DEL followed by a failed SET leaves the key absent |
| TempRepo.GetByID | internal/user/temprepo/user_repository.go:48-78 | A cache hit is returned and nothing is written; a bad payload is an error with no fallback to the table; a miss the table cannot answer gives the zero user and leaves the cache alone; a miss the table answers returns the row, cached again, or returned with an error when that SET fails; no entry of another id changes |
| TempRepo.GetByUsername | internal/user/temprepo/user_repository.go:80-88 | The table alone, names compared under the collation: a success is a matching row; it succeeds iff one exists and the lowest-id one is the answer; a failure carries the zero user |
| TempRepo.UpdateNickname | internal/user/temprepo/user_repository.go:90-114 | A table failure returns at once with nothing changed; otherwise the table holds the new nickname whatever the cache does; a user already cached keeps its old cached value; an uncached user gets cached with the new nickname; a failing cache step after the table committed (the write-back of the read-through, or the GET, DEL or SET that recaches) is still returned as an error; no other row changes, nor, for an aligned cache, any other entry |
| TempRepo.UpdateProfileImage | internal/user/temprepo/user_repository.go:116-139 | The corrected bind order, with the same outcomes, recaching and frame as UpdateNickname, for the profile image, including the error returned when a cache step fails after the table committed |
| TempRepo.UpdateProfileImageAsWritten | internal/user/temprepo/user_repository.go:116-139 | With the arguments bound as written, the row addressed by id is unchanged unless the image name happens to select it; a failing cache step after the statement is still returned as an error |
| TempRepo.ReadThroughRepopulates | internal/user/temprepo/user_repository.go:48-69 | After a miss answered by the table, the next read is a cache hit giving the same user and writing nothing |
| TempRepo.UpdateNicknameKeepsStaleCache | internal/user/temprepo/user_repository.go:90-114 | When the user was cached, the update succeeds and the table has the new nickname, yet a cache-served read still gives the old one |
| TempRepo.SwappedBindMissesTarget | internal/user/temprepo/user_repository.go:122 | Updating user 1's image to "a.png" as written reports success and leaves the image unset, where the corrected update sets it |
| TempRepo.IfExistAgreesWithSet | internal/user/temprepo/user_repository.go:141-175 | When no command fails, SetUserToCacheIfExist leaves the same cache and result as SetUserToCache |
| Auth.CreateTokenClaims | pkg/auth/auth.go:18-29 | The claims are authorized, carry the id as subject, and expire 1800 seconds after issue |
| Auth.ExtractToken | pkg/auth/auth.go:31-41 | A header without "Bearer" gives ""; a header with "Bearer" but no "Bearer " is returned unchanged; the token is never longer than the header |
| Auth.ExtractTokenOfBearerHeader | pkg/auth/auth.go:31-41 | "Bearer <token>" yields the token when the token itself has no "Bearer " |
| Auth.ExtractTokenID | pkg/auth/auth.go:62-83 | A rejected token gives (0, error); an accepted token with valid map claims gives its numeric subject iff it fits 32 unsigned bits, and an error otherwise; an accepted token without valid map claims gives (0, no error) |
| Auth.SubjectTextParses | pkg/auth/auth.go:76-80 | The printed subject parses as an unsigned 32-bit number exactly when the subject is a number in that range, and then to the same number |
| Auth.IssuedTokenYieldsSubject | pkg/auth/auth.go:62-83 | A token accepted with the claims issued for id yields id exactly when id fits 32 unsigned bits |
| Middlewares.Authenticate | pkg/middlewares/middlewares.go:13-32 | The handler runs iff the token verifies, the path id is an integer, and the subject is extracted without error and equals it; a bad token is 401 whatever the path id; a non-integer path id is 500; a subject error or mismatch is 401; every refusal says "Unauthorized" |
| Middlewares.SetMiddlewareJSON | pkg/middlewares/middlewares.go:40-45 | The handler is always invoked; Content-Type becomes application/json and every other header is unchanged |
| Middlewares.SetMiddlewareJSONIdempotent | pkg/middlewares/middlewares.go:40-45 | Applying the JSON middleware twice sets the same headers as applying it once |
| Middlewares.OnlyOwnerPasses | pkg/middlewares/middlewares.go:20-29 | A token accepted for user subject opens the path of user target exactly when they are the same user, and is 401 otherwise |
| Helper.Validate | pkg/helper/util.go:30-40 | An error iff the action is login or register (any case) and the username or password is empty; the username is checked first |
| Helper.ValidateIgnoresActionCase | pkg/helper/util.go:31 | Validation gives the same answer for the action and its lower-case form |
| Helper.FormatError | pkg/helper/util.go:42-57 | Always one of four messages, chosen by the first of "username", "hashedPassword", "no rows" that occurs in the text, and "Incorrect Details" when none does, each case an iff |
| Helper.UsernameAlreadyExistFormats | internal/user/delivery/http/user_handler.go:82 | "username already exist" maps to "Username Already Taken" |
| Helper.StoreErrorsFormat | pkg/helper/util.go:48-54 | The no-rows text of the SQL driver maps to "User not exist" and bcrypt's mismatch text to "Incorrect Password" |
| Decimal.Itoa | internal/user/repository/redis_user.go:47 | The decimal text is non-empty and starts with '-' exactly for negative numbers |
| Decimal.Atoi | pkg/middlewares/middlewares.go:20 | Accepts exactly the texts made of an optional sign and at least one digit whose value is a 64-bit integer, and gives that value, negated after a '-' |
| Decimal.AtoiExamples | pkg/middlewares/middlewares.go:20 | "007" and "+7" give 7 and "-12" gives -12; "abc", "1a", "-" and "" are rejected |
| Decimal.ParseUint32 | pkg/auth/auth.go:76 | Accepts exactly the non-empty all-digit texts whose value is at most 2^32 - 1, and gives that value |
| Decimal.DigitsValueOfNatDigits | internal/user/repository/redis_user.go:47 | Reading back the digits of a natural number gives the number |
| Decimal.AtoiOfItoa | pkg/middlewares/middlewares.go:20 | Atoi(Itoa(n)) == n for every 64-bit n |
| Decimal.ItoaInjective | internal/user/repository/redis_user.go:47 | Two integers have the same decimal text iff they are equal |
| Decimal.ParseUint32OfItoa | pkg/auth/auth.go:76 | The decimal text of n parses as an unsigned 32-bit number exactly when n is in range, and then gives n |
| Text.RemoveAll | pkg/auth/auth.go:38 | Removing a pattern never lengthens the text, and a text without the pattern is returned unchanged |
| Text.ToLower | pkg/helper/util.go:31 | Lower-casing keeps the length and maps each character on its own |
| Text.ToLowerIdempotent | pkg/helper/util.go:31 | Lower-casing twice is lower-casing once |

## Left out

- HTTP handlers (internal/user/delivery/http/user_handler.go): request decoding, uploads and response writing are I/O around the modelled calls.
- Process wiring and seeding (cmd/app/main.go, cmd/seed/main.go): configuration, connection pools and bulk inserts. Only the column types of the schema are used.
- SQL, Redis commands and JSON are abstract: a table is a map plus a counter, a cache is a map, and encoding is the identity on `User`.
- bcrypt hashing and comparison, JWT signing, HS256 verification and the expiry check are oracles: the password check is a function parameter and `jwt.Parse` is a function from token text to its verdict.
- `RandToken` (randomness) and `RemovePicture` (file system) are not modelled. `MiddlewareTestHttpRouter` only calls its handler and is not modelled. `Pretty` only prints.
- Concurrency: the Redis pool, connection sharing and races between requests. The model is single-threaded.
- MysqlRepo.Store: the auto-increment counter does not advance on a failed exec. MySQL may consume an id there; that only skips ids and is not modelled.
- MysqlRepo.GetByUsername: with several rows of one username, `QueryRow` returns whichever row the query plan yields. The model picks the lowest id.
- MysqlRepo.Collation: how the server's default collation compares names (case, accents, trailing spaces) is a parameter, not a fixed function. The lemmas hold for every collation.
- UpdateNickname, UpdateProfileImage (in Usecase and TempRepo): the frame for other cache entries is stated for an aligned cache, where every entry sits under its own id's key. `TwoStores.Consistent` implies that. Over an unaligned cache, the read-modify-write writes back under the id the entry carries.
- RedisRepo.UpdateNickname: the frame for other entries is stated only for an aligned cache, for the same reason.
- RedisRepo.UpdateProfileImage: the frame for other entries is stated only for an aligned cache, for the same reason.
- MemoryRepo.UpdateNickname: the frame for other entries is stated only when the entry under the id is a user carrying that id; otherwise the write-back lands under the id the entry carries.
- MemoryRepo.UpdateProfileImage: the frame for other entries is stated only when the entry under the id is a user carrying that id, for the same reason.
- MysqlRepo.Store: the width of the username column is not modelled. The seed schema declares varchar(40) (cmd/seed/main.go:119) and the application's own schema varchar(240) (cmd/app/main.go:113). A longer name fails to insert under strict mode and is truncated otherwise.
- MysqlRepo.UpdateNickname: the varchar(240) width of the nickname column (cmd/app/main.go:113) is not modelled; the handler passes the nickname on unbounded (internal/user/delivery/http/user_handler.go:190). The model reads as strict mode, where an over-long value fails (the exec fault), or as values within the width.
- MysqlRepo.UpdateProfileImage: the varchar(240) width of the profile_image column (cmd/app/main.go:113) is not modelled, with the same reading.
- Usecase.StorePreservesConsistency: holds under strict mode or for password, nickname and profile image within 240 characters. Outside strict mode the table would keep a truncated value while the cache keeps the full text, which breaks `TwoStores.Mirrors`.
- Usecase.UpdateNicknamePreservesConsistency: holds under strict mode or for a nickname within 240 characters, for the same reason.
- Usecase.UpdateProfileImagePreservesConsistency: holds under strict mode or for an image name within 240 characters, for the same reason.
- Models.Payload: a payload that decodes only partially, or the literal `null` (which would leave a nil user and make the in-memory update dereference it), is not modelled. A payload either decodes completely or not at all.
- Auth.Subject: the float64 rounding of `%.0f` is not modelled. A numeric subject is kept as the integer the issuer put in, and a non-number prints as a text that no number parser accepts.
- Auth.TokenValidFromID: the two `jwt.Parse` calls of one request are assumed to see the same clock, so they give the same verdict.
- Text.LowerChar: `strings.ToLower` is modelled for ASCII letters and the two non-ASCII characters whose lower case is ASCII (U+0130, U+212A). Other characters are unchanged. That is exact for comparisons with "login" and "register".
- Text.RemoveAll: the contract states the length bound and the case without an occurrence, not the exact text left after removal. Auth.ExtractTokenOfBearerHeader states it for the header form the clients send.
- Auth.ExtractToken: inherits the gap of Text.RemoveAll. It states the empty result for a header without "Bearer", the unchanged header when "Bearer " does not occur, and the length bound, but not the exact token left for a general header. Auth.ExtractTokenOfBearerHeader states that token for "Bearer <token>".

## Findings

| source | as written | input that shows it | evidently intended | confidence | as-written member | corrected member |
|---|---|---|---|---|---|---|
| internal/user/temprepo/user_repository.go:122 | `ExecContext(ctx, id, null.StringFrom(profile_image))` binds the id to `profile_image = ?` and the image name to `id = ?` | user 1, image "a.png": no row has id "a.png", so nothing is updated (the call reports success, or a conversion error under strict mode) | bind `(profile_image, id)`, as internal/user/repository/mysql_user.go:89 does; the sqlmock test at internal/user/repository/mysql_user_test.go:196-198 expects the swapped `(id, profile_image)` as well, while the one at internal/user/repository/mysql_user_test.go:227-228 expects `("prof1", int64(1))` | high, not executed | TempRepo.SwappedBindMissesTarget | TempRepo.UpdateProfileImage |

=== FILE: auth.dfy ===
/** The credential gate's token handling (pkg/auth/auth.go). Signing and
    verification (HS256) and the expiry check are done by a JWT library; here
    its `Parse` is an oracle, a function from the token text to what the
    library reports for it under the server's key at the current time. */
module Auth {

  import opened Wrappers
  import opened Models
  import Text
  import Decimal

  /** `time.Minute * 30`, the token lifetime, in seconds. */
  const TokenLifetime: int := 1800

  const Bearer: string := "Bearer"

  /** The claim set a token carries. */
  datatype Claims = Claims(authorized: bool, userId: int, exp: int)

  /** The `user_id` claim as decoded from JSON: a number (the library decodes
      numbers as float64; `%.0f` prints its value rounded to an integer, which
      is what is kept here) or anything else, including a missing claim. */
  datatype Subject = Number(value: int) | NotNumber

  /** What `jwt.Parse` reports: an error (malformed token, unexpected signing
      method, bad signature, expired), or a token with map claims or not,
      valid or not, and its subject claim. */
  datatype Parsed = Rejected | Accepted(mapClaims: bool, valid: bool, subject: Subject)

  /** `ExtractTokenID`'s `(int64, error)`. */
  datatype TokenId = TokenId(id: int, err: Option<Error>)

  /** The claims `CreateTokenFromID` signs for user `id` at Unix time `now` (seconds). */
  function CreateTokenClaims(id: int, now: int): (c: Claims)
    ensures c.authorized
    ensures c.userId == id
    ensures c.exp - now == TokenLifetime
  {
    Claims(true, id, now + TokenLifetime)
  }

  /** `ExtractToken`: the `Authorization` header without its "Bearer " prefix;
      empty when the header does not mention "Bearer" at all. */
  function ExtractToken(header: string): (t: string)
    ensures !Text.Contains(header, Bearer) ==> t == ""
    // "Bearer" without a following space passes the check and is returned unchanged
    ensures Text.Contains(header, Bearer) && !Text.Contains(header, Bearer + " ") ==> t == header
    ensures |t| <= |header|
  {
    if !Text.Contains(header, Bearer) then ""
    else Text.RemoveAll(header, Bearer + " ")
  }

  /** What `fmt.Sprintf("%.0f", claims["user_id"])` prints: the decimal text of
      a number, or an error marker for anything else. */
  function SubjectText(s: Subject): string
  {
    match s
    case Number(v) => Decimal.Itoa(v)
    case NotNumber => "%!f(<nil>)"
  }

  /** `ExtractTokenID`. A rejected token gives `(0, err)`; an accepted, valid
      token gives its subject if `strconv.ParseUint(_, 10, 32)` accepts it;
      an accepted token that is not valid gives `(0, nil)`. */
  function ExtractTokenID(header: string, parse: string -> Parsed): (r: TokenId)
    ensures parse(ExtractToken(header)).Rejected? ==> r == TokenId(0, Some(TokenRejected))
    ensures r.err.Some? ==> r.id == 0
    ensures r.err.None? ==> 0 <= r.id <= Decimal.MaxUint32
    ensures match parse(ExtractToken(header))
      case Accepted(true, true, Number(v)) =>
        (r.err.None? <==> 0 <= v <= Decimal.MaxUint32) && (r.err.None? ==> r.id == v)
      case Accepted(true, true, NotNumber) => r == TokenId(0, Some(SubjectNotUint32))
      case Accepted(_, _, _) => r == TokenId(0, None)
      case Rejected => true
  {
    match parse(ExtractToken(header))
    case Rejected => TokenId(0, Some(TokenRejected))
    case Accepted(mapClaims, valid, subject) =>
      if mapClaims && valid then
        SubjectTextParses(subject);
        match Decimal.ParseUint32(SubjectText(subject))
        case Some(v) => TokenId(v, None)
        case None => TokenId(0, Some(SubjectNotUint32))
      else TokenId(0, None)
  }

  /** `strconv.ParseUint(_, 10, 32)` on the printed subject accepts exactly
      the numbers that fit in 32 unsigned bits, and returns them unchanged. */
  lemma SubjectTextParses(s: Subject)
    ensures s.NotNumber? ==> Decimal.ParseUint32(SubjectText(s)).None?
    ensures s.Number? ==>
      && (Decimal.ParseUint32(SubjectText(s)).Some? <==> 0 <= s.value <= Decimal.MaxUint32)
      && (Decimal.ParseUint32(SubjectText(s)).Some? ==> Decimal.ParseUint32(SubjectText(s)).value == s.value)
  {
    match s
    case Number(v) => Decimal.ParseUint32OfItoa(v);
    case NotNumber => assert !Decimal.IsDigit(SubjectText(s)[0]);
  }

  /** `TokenValidFromID`: the token parses and verifies. */
  predicate TokenValidFromID(header: string, parse: string -> Parsed)
  {
    !parse(ExtractToken(header)).Rejected?
  }

  /** A header "Bearer <token>" yields the token, when the token itself does
      not contain "Bearer ". */
  lemma ExtractTokenOfBearerHeader(token: string)
    requires !Text.Contains(token, Bearer + " ")
    ensures ExtractToken(Bearer + " " + token) == token
  {
    var header := Bearer + " " + token;
    assert Text.OccursAt(header, Bearer, 0);
    assert Text.StartsWith(header, Bearer + " ");
    assert header[|Bearer + " "|..] == token;
  }

  /** Issuing then extracting: a token the library accepts with the claims
      issued for user `id` yields `id` exactly when `id` fits in 32 unsigned bits. */
  lemma IssuedTokenYieldsSubject(id: int, now: int, header: string, parse: string -> Parsed)
    requires parse(ExtractToken(header)) == Accepted(true, true, Number(CreateTokenClaims(id, now).userId))
    ensures ExtractTokenID(header, parse).err.None? <==> 0 <= id <= Decimal.MaxUint32
    ensures 0 <= id <= Decimal.MaxUint32 ==> ExtractTokenID(header, parse) == TokenId(id, None)
  {
  }
}

=== FILE: decimal.dfy ===
/** Decimal text of 64-bit integers: `strconv.Itoa`, `strconv.Atoi` and
    `strconv.ParseUint(s, 10, 32)` as the code uses them for cache keys,
    request path ids and token subjects. */
module Decimal {

  import opened Wrappers

  const MinInt64: int := -0x8000_0000_0000_0000
  const MaxInt64: int := 0x7FFF_FFFF_FFFF_FFFF
  const MaxUint32: int := 0xFFFF_FFFF

  predicate IsInt64(n: int)
  {
    MinInt64 <= n <= MaxInt64
  }

  predicate IsDigit(c: char)
  {
    '0' <= c <= '9'
  }

  predicate AllDigits(s: string)
  {
    forall i :: 0 <= i < |s| ==> IsDigit(s[i])
  }

  function DigitChar(d: int): (c: char)
    requires 0 <= d < 10
    ensures IsDigit(c)
  {
    ('0' as int + d) as char
  }

  function DigitValue(c: char): (d: int)
    requires IsDigit(c)
    ensures 0 <= d < 10
  {
    c as int - '0' as int
  }

  /** The shortest decimal text of a natural number, most significant digit first. */
  function NatDigits(n: nat): (s: string)
    ensures |s| > 0 && AllDigits(s)
    ensures |s| > 1 ==> s[0] != '0'
  {
    if n < 10 then [DigitChar(n)] else NatDigits(n / 10) + [DigitChar(n % 10)]
  }

  /** The number a string of decimal digits denotes (leading zeros allowed). */
  function DigitsValue(s: string): nat
    requires AllDigits(s)
  {
    if |s| == 0 then 0 else DigitsValue(s[..|s| - 1]) * 10 + DigitValue(s[|s| - 1])
  }

  /** `strconv.Itoa` (the code converts int64 ids with `int(id)`, a 64-bit int). */
  function Itoa(n: int): (s: string)
    ensures |s| > 0
    ensures n >= 0 <==> s[0] != '-'
  {
    if n < 0 then "-" + NatDigits(-n) else NatDigits(n)
  }

  /** The text after an optional leading `+` or `-`. */
  function Unsigned(s: string): (u: string)
    ensures |u| <= |s|
  {
    if |s| > 0 && (s[0] == '+' || s[0] == '-') then s[1..] else s
  }

  /** The number a sign-and-digits text denotes: the digits read in base 10,
      negated after a '-'. */
  function SignedValue(s: string): int
    requires |Unsigned(s)| > 0 && AllDigits(Unsigned(s))
  {
    if s[0] == '-' then 0 - (DigitsValue(Unsigned(s)) as int) else DigitsValue(Unsigned(s))
  }

  /** `strconv.Atoi` on a 64-bit platform: an optional `+` or `-`, then at
      least one decimal digit, with the value inside the int64 range. */
  function Atoi(s: string): (r: Option<int>)
    // accepted texts: a sign at most, then digits only, at least one
    ensures r.Some? ==> |Unsigned(s)| > 0 && AllDigits(Unsigned(s))
    ensures r.Some? ==> IsInt64(r.value) && r.value == SignedValue(s)
    // every such text whose value is in range is accepted
    ensures |Unsigned(s)| > 0 && AllDigits(Unsigned(s)) && IsInt64(SignedValue(s)) ==> r.Some?
  {
    var negative := |s| > 0 && s[0] == '-';
    var body := Unsigned(s);
    if |body| == 0 || !AllDigits(body) then None
    else
      var v: int := if negative then 0 - (DigitsValue(body) as int) else DigitsValue(body);
      if IsInt64(v) then Some(v) else None
  }

  /** Leading zeros and a plus sign are accepted; letters, a bare sign and
      the empty text are not. */
  lemma AtoiExamples()
    ensures Atoi("007") == Some(7)
    ensures Atoi("+7") == Some(7)
    ensures Atoi("-12") == Some(-12)
    ensures Atoi("abc") == None
    ensures Atoi("-") == None
    ensures Atoi("") == None
    ensures Atoi("1a") == None
  {
    assert "007"[..2] == "00" && "00"[..1] == "0" && "0"[..0] == "";
    assert Unsigned("+7") == "7" && "7"[..0] == "";
    assert Unsigned("-12") == "12" && "12"[..1] == "1" && "1"[..0] == "";
    assert !IsDigit("abc"[0]);
    assert !IsDigit("1a"[1]);
  }

  /** `strconv.ParseUint(s, 10, 32)`: digits only (no sign), value at most 2^32 - 1. */
  function ParseUint32(s: string): (r: Option<int>)
    ensures r.Some? ==> 0 <= r.value <= MaxUint32
    ensures r.Some? ==> AllDigits(s) && |s| > 0
    // the value is the digits read in base 10, and every in-range digit text is accepted
    ensures r.Some? ==> r.value == DigitsValue(s)
    ensures |s| > 0 && AllDigits(s) && DigitsValue(s) <= MaxUint32 ==> r.Some?
  {
    if |s| == 0 || !AllDigits(s) then None
    else if DigitsValue(s) <= MaxUint32 then Some(DigitsValue(s))
    else None
  }

  /** Reading back the digits `NatDigits` writes gives the number again. */
  lemma {:induction false} DigitsValueOfNatDigits(n: nat)
    ensures DigitsValue(NatDigits(n)) == n
  {
    if n >= 10 {
      var s := NatDigits(n);
      var prefix := NatDigits(n / 10);
      assert s == prefix + [DigitChar(n % 10)];
      assert s[..|s| - 1] == prefix;
      DigitsValueOfNatDigits(n / 10);
    }
  }

  /** `strconv.Atoi(strconv.Itoa(n)) == n` for every int64 `n`. */
  lemma AtoiOfItoa(n: int)
    requires IsInt64(n)
    ensures Atoi(Itoa(n)) == Some(n)
  {
    if n < 0 {
      DigitsValueOfNatDigits(-n);
      assert Itoa(n)[1..] == NatDigits(-n);
    } else {
      DigitsValueOfNatDigits(n);
    }
  }

  /** Distinct integers have distinct decimal texts. */
  lemma ItoaInjective(m: int, n: int)
    ensures Itoa(m) == Itoa(n) <==> m == n
  {
    if Itoa(m) == Itoa(n) {
      if m >= 0 {
        DigitsValueOfNatDigits(m);
        DigitsValueOfNatDigits(n);
      } else {
        assert Itoa(m)[1..] == NatDigits(-m);
        assert Itoa(n)[1..] == NatDigits(-n);
        DigitsValueOfNatDigits(-m);
        DigitsValueOfNatDigits(-n);
      }
    }
  }

  /** `strconv.ParseUint(Itoa(n), 10, 32)` accepts exactly the numbers in 0 .. 2^32 - 1,
      and then returns `n`. */
  lemma ParseUint32OfItoa(n: int)
    ensures ParseUint32(Itoa(n)).Some? <==> 0 <= n <= MaxUint32
    ensures ParseUint32(Itoa(n)).Some? ==> ParseUint32(Itoa(n)).value == n
  {
    if n >= 0 {
      DigitsValueOfNatDigits(n);
    } else {
      assert !IsDigit(Itoa(n)[0]);
    }
  }
}

=== FILE: helper.dfy ===
/** The two pure helpers of pkg/helper/util.go: request validation and the
    mapping of internal error texts to the messages shown to clients. */
module Helper {

  import opened Wrappers
  import Text

  const RequiredUsername: string := "Required Username"
  const RequiredPassword: string := "Required Password"

  const UsernameTaken: string := "Username Already Taken"
  const IncorrectPassword: string := "Incorrect Password"
  const UserNotExist: string := "User not exist"
  const IncorrectDetails: string := "Incorrect Details"

  /** The actions whose credentials are checked, compared case-insensitively. */
  predicate ChecksCredentials(action: string)
  {
    Text.ToLower(action) == "login" || Text.ToLower(action) == "register"
  }

  /** `Validate`: for login and register, the username must be non-empty,
      then the password; every other action passes. */
  function Validate(action: string, username: string, password: string): (r: Option<string>)
    ensures r.Some? ==> ChecksCredentials(action)
    ensures r.Some? <==> ChecksCredentials(action) && (username == "" || password == "")
    // the username is checked first
    ensures r.Some? && username == "" ==> r.value == RequiredUsername
    ensures r.Some? && username != "" ==> r.value == RequiredPassword
  {
    if ChecksCredentials(action) then
      if username == "" then Some(RequiredUsername)
      else if password == "" then Some(RequiredPassword)
      else None
    else None
  }

  /** `FormatError`: the first of "username", "hashedPassword" and "no rows"
      that occurs in the text picks the message; none of them gives
      "Incorrect Details". */
  function FormatError(err: string): (r: string)
    ensures r in {UsernameTaken, IncorrectPassword, UserNotExist, IncorrectDetails}
    ensures r == UsernameTaken <==> Text.Contains(err, "username")
    ensures r == IncorrectPassword <==> !Text.Contains(err, "username") && Text.Contains(err, "hashedPassword")
    ensures r == UserNotExist <==>
      !Text.Contains(err, "username") && !Text.Contains(err, "hashedPassword") && Text.Contains(err, "no rows")
    ensures r == IncorrectDetails <==>
      !Text.Contains(err, "username") && !Text.Contains(err, "hashedPassword") && !Text.Contains(err, "no rows")
  {
    if Text.Contains(err, "username") then UsernameTaken
    else if Text.Contains(err, "hashedPassword") then IncorrectPassword
    else if Text.Contains(err, "no rows") then UserNotExist
    else IncorrectDetails
  }

  /** Validation does not depend on the case of the action. */
  lemma ValidateIgnoresActionCase(action: string, username: string, password: string)
    ensures Validate(action, username, password) == Validate(Text.ToLower(action), username, password)
  {
  }

  /** The registration handler's text for a taken username maps to "Username Already Taken". */
  lemma UsernameAlreadyExistFormats()
    ensures FormatError("username already exist") == UsernameTaken
  {
    assert Text.OccursAt("username already exist", "username", 0);
  }

  /** The texts of `sql.ErrNoRows` and of bcrypt's mismatch error map to
      "User not exist" and "Incorrect Password". */
  lemma StoreErrorsFormat()
    ensures FormatError("sql: no rows in result set") == UserNotExist
    ensures FormatError("crypto/bcrypt: " + "hashedPassword" + " is not the hash of the given password") == IncorrectPassword
  {
    var noRows := "sql: no rows in result set";
    assert Text.OccursAt(noRows, "no rows", 5);
    Text.MissingCharNotContained(noRows, "username", 'm');
    Text.MissingCharNotContained(noRows, "hashedPassword", 'P');
    var prefix := "crypto/bcrypt: ";
    var mismatch := prefix + "hashedPassword" + " is not the hash of the given password";
    assert mismatch[|prefix|..|prefix| + 14] == "hashedPassword";
    assert Text.OccursAt(mismatch, "hashedPassword", |prefix|);
    Text.MissingCharNotContained(mismatch, "username", 'm');
  }
}

=== FILE: memory_repo.dfy ===
/** The in-memory store (internal/user/repository/memory_user.go): a Go map
    from int64 id to the JSON text of a user. None of its calls can fail
    except on a missing id. */
module MemoryRepo {

  import opened Wrappers
  import opened Models

  /** `map[int64]string`; an absent id reads as `""`, which the code treats as missing. */
  type Entries = map<int, Payload>

  /** The map and the error after a write. */
  datatype Written = Written(store: Entries, err: Option<Error>)

  /** `Store`: `hm[user.ID] = json(user)`, overwriting any earlier entry. */
  function Store(m: Entries, u: User): (w: Written)
    ensures w.err.None?
    ensures u.id in w.store && w.store[u.id] == Json(u)
    ensures w.store.Keys == m.Keys + {u.id}
    ensures forall id :: id in m && id != u.id ==> w.store[id] == m[id]
  {
    Written(m[u.id := Json(u)], None)
  }

  /** `GetByID`. A payload that does not decode is only logged: the call
      answers with the zero user and no error. */
  function GetByID(m: Entries, id: int): (r: Reply)
    ensures id !in m <==> r.err.Some?
    ensures id !in m ==> r == Reply(Empty, Some(IdNotFound))
    ensures id in m ==> r.user == (if m[id].Json? then m[id].user else Empty)
  {
    if id !in m then Reply(Empty, Some(IdNotFound))
    else match m[id]
      case Malformed => Reply(Empty, None)
      case Json(u) => Reply(u, None)
  }

  /** `GetByUsername`: no username index; always the zero user and no error. */
  function GetByUsername(m: Entries, name: string): (r: Reply)
    ensures r.err.None? && r.user == Empty
  {
    Reply(Empty, None)
  }

  /** `UpdateNickname`: read, set the nickname, store back under the id the
      decoded user carries. For an undecodable entry that is the zero user's
      id 0, so the write lands under key 0 and the entry itself stays. */
  function UpdateNickname(m: Entries, id: int, nickname: string): (w: Written)
    ensures w.err.Some? <==> id !in m
    ensures id !in m ==> w == Written(m, Some(IdNotFound))
    ensures id in m && m[id].Json? && m[id].user.id == id ==>
      w.store == m[id := Json(m[id].user.(nickname := Valid(nickname)))]
    ensures id in m && m[id].Malformed? ==>
      w.store == m[0 := Json(Empty.(nickname := Valid(nickname)))]
  {
    var r := GetByID(m, id);
    if r.err.Some? then Written(m, r.err)
    else Store(m, r.user.(nickname := Valid(nickname)))
  }

  /** `UpdateProfileImage`: the same read-modify-write on the profile image. */
  function UpdateProfileImage(m: Entries, id: int, image: string): (w: Written)
    ensures w.err.Some? <==> id !in m
    ensures id !in m ==> w == Written(m, Some(IdNotFound))
    ensures id in m && m[id].Json? && m[id].user.id == id ==>
      w.store == m[id := Json(m[id].user.(profileImage := Valid(image)))]
    ensures id in m && m[id].Malformed? ==>
      w.store == m[0 := Json(Empty.(profileImage := Valid(image)))]
  {
    var r := GetByID(m, id);
    if r.err.Some? then Written(m, r.err)
    else Store(m, r.user.(profileImage := Valid(image)))
  }

  /** Round trip: after storing `u`, looking up `u.ID` gives `u` and no error. */
  lemma StoreThenGetByID(m: Entries, u: User)
    ensures GetByID(Store(m, u).store, u.id) == Reply(u, None)
  {
  }

  /** Updating the nickname of a stored user changes that field only: a later
      lookup gives the user with the new nickname and every other field as stored. */
  lemma StoreThenUpdateNickname(m: Entries, u: User, nickname: string)
    ensures var w := UpdateNickname(Store(m, u).store, u.id, nickname);
      w.err.None? && GetByID(w.store, u.id) == Reply(u.(nickname := Valid(nickname)), None)
  {
  }

  /** The same for the profile image. */
  lemma StoreThenUpdateProfileImage(m: Entries, u: User, image: string)
    ensures var w := UpdateProfileImage(Store(m, u).store, u.id, image);
      w.err.None? && GetByID(w.store, u.id) == Reply(u.(profileImage := Valid(image)), None)
  {
  }
}

=== FILE: middlewares.dfy ===
/** The HTTP middlewares (pkg/middlewares/middlewares.go): the ownership
    check in front of "act on my own profile" handlers, and the JSON content
    type. A handler is modelled by whether it is invoked. */
module Middlewares {

  import opened Wrappers
  import Auth
  import Decimal

  const StatusUnauthorized: int := 401
  const StatusInternalServerError: int := 500
  const Unauthorized: string := "Unauthorized"

  /** What the middleware does with a request: invoke the wrapped handler, or
      answer with an error status and message without invoking it. */
  datatype Response = Forward | Refuse(status: int, message: string)

  /** A handler that was given the (possibly changed) response headers, and
      whether it was invoked. */
  datatype Handled = Handled(headers: map<string, seq<string>>, invoked: bool)

  /** `SetMiddlewareAuthentication`: the token must verify, the path id must
      be an integer, and the token's subject must equal it; each check runs
      only after the previous one passed. */
  function Authenticate(header: string, pathId: string, parse: string -> Auth.Parsed): (r: Response)
    // the handler runs exactly when all three checks pass
    ensures r.Forward? <==>
      && Auth.TokenValidFromID(header, parse)
      && Decimal.Atoi(pathId).Some?
      && Auth.ExtractTokenID(header, parse) == Auth.TokenId(Decimal.Atoi(pathId).value, None)
    ensures r.Refuse? ==> r.message == Unauthorized
    // the token is checked first: a bad token is 401 whatever the path id is
    ensures !Auth.TokenValidFromID(header, parse) ==> r == Refuse(StatusUnauthorized, Unauthorized)
    // a path id that is not an integer is 500
    ensures Auth.TokenValidFromID(header, parse) && Decimal.Atoi(pathId).None? ==>
      r == Refuse(StatusInternalServerError, Unauthorized)
    // a subject error or a different subject is 401
    ensures Auth.TokenValidFromID(header, parse) && Decimal.Atoi(pathId).Some? && r.Refuse? ==>
      r.status == StatusUnauthorized
  {
    if !Auth.TokenValidFromID(header, parse) then Refuse(StatusUnauthorized, Unauthorized)
    else match Decimal.Atoi(pathId)
      case None => Refuse(StatusInternalServerError, Unauthorized)
      case Some(userId) =>
        var extracted := Auth.ExtractTokenID(header, parse);
        if extracted.err.Some? || extracted.id != userId then Refuse(StatusUnauthorized, Unauthorized)
        else Forward
  }

  /** `SetMiddlewareJSON`: `Content-Type: application/json` replaces any
      earlier value, and the handler is always invoked. */
  function SetMiddlewareJSON(headers: map<string, seq<string>>): (h: Handled)
    ensures h.invoked
    ensures "Content-Type" in h.headers && h.headers["Content-Type"] == ["application/json"]
    ensures forall k :: k in headers && k != "Content-Type" ==> k in h.headers && h.headers[k] == headers[k]
    ensures h.headers.Keys == headers.Keys + {"Content-Type"}
  {
    Handled(headers["Content-Type" := ["application/json"]], true)
  }

  /** Ownership: a token the library accepts for user `subject` opens the
      path of user `target` exactly when they are the same user. */
  lemma OnlyOwnerPasses(subject: int, target: int, now: int, header: string, parse: string -> Auth.Parsed)
    requires 0 <= subject <= Decimal.MaxUint32 && Decimal.IsInt64(target)
    requires parse(Auth.ExtractToken(header)) == Auth.Accepted(true, true, Auth.Number(Auth.CreateTokenClaims(subject, now).userId))
    ensures Authenticate(header, Decimal.Itoa(target), parse).Forward? <==> subject == target
    ensures subject != target ==> Authenticate(header, Decimal.Itoa(target), parse) == Refuse(StatusUnauthorized, Unauthorized)
  {
    Decimal.AtoiOfItoa(target);
    Auth.IssuedTokenYieldsSubject(subject, now, header, parse);
  }

  /** Wrapping twice sets the same headers as wrapping once. */
  lemma SetMiddlewareJSONIdempotent(headers: map<string, seq<string>>)
    ensures SetMiddlewareJSON(SetMiddlewareJSON(headers).headers) == SetMiddlewareJSON(headers)
  {
  }
}

=== FILE: models.dfy ===
/** The user record shared by every store (internal/models/user.go) and the
    error values the stores and the gate can return. */
module Models {

  import opened Wrappers

  /** gopkg.in/guregu/null.v3 `null.String`: SQL NULL or a string.
      `null.StringFrom(s)` is always `Valid(s)`, even for the empty string. */
  datatype NullString = Null | Valid(s: string)

  /** `models.User`. The id is an int64 assigned by the relational store. */
  datatype User = User(
    id: int,
    username: string,
    password: string,
    nickname: NullString,
    profileImage: NullString)

  /** `&models.User{}`: the zero value every failing lookup returns. */
  const Empty: User := User(0, "", "", Null, Null)

  /** A value held by a key-value store: the JSON encoding of a user, or a
      payload `json.Unmarshal` rejects without filling any field (for
      instance the bare number `123`). Encoding and decoding are modelled as
      the identity on `User`. */
  datatype Payload = Json(user: User) | Malformed

  /** The distinct error values the code creates or compares against. */
  datatype Error =
    | CacheMiss          // redis.ErrNil: GET on an absent key
    | StoreFailure       // a failed statement or command of either store
    | BadPayload         // json.Unmarshal rejected a cached value
    | IdNotFound         // errors.New("ID NOT FOUND") of the in-memory store
    | NoRows             // sql.ErrNoRows
    | PasswordMismatch   // bcrypt.ErrMismatchedHashAndPassword
    | TokenRejected      // jwt.Parse failed: malformed, bad signature or expired
    | SubjectNotUint32   // strconv.ParseUint(..., 10, 32) rejected the subject

  /** `(*models.User, error)`: Go returns both, and one repository returns a
      populated user together with an error. */
  datatype Reply = Reply(user: User, err: Option<Error>)

  /** The zero user together with an error: how every failed lookup answers. */
  predicate IsFailure(r: Reply)
  {
    r.err.Some? && r.user == Empty
  }
}

=== FILE: mysql_repo.dfy ===
/** The authoritative relational store (internal/user/repository/mysql_user.go)
    as an abstract `user` table: rows keyed by id plus the auto-increment counter.
    Whether a statement fails (prepare, exec, `LastInsertId`, a query) is a
    parameter of each call. */
module MysqlRepo {

  import opened Wrappers
  import opened Models

  /** Largest value of the `id int not null auto_increment` column (signed 32-bit). */
  const MaxId: int := 0x7FFF_FFFF

  /** The `user` table: its rows by id and the next auto-increment value. */
  datatype Table = Table(rows: map<int, User>, nextId: int)

  /** A table the code can produce: ids are 1 .. nextId - 1, each row carries
      its own id, and the counter never passes one beyond the column's range. */
  predicate WellFormed(t: Table)
  {
    && 1 <= t.nextId <= MaxId + 1
    && forall id :: id in t.rows ==> 1 <= id < t.nextId && t.rows[id].id == id
  }

  /** The statement of `Store` that fails, if any. */
  datatype InsertStep = InsertPrepare | InsertExec | InsertLastId

  /** The statement of an update that fails, if any. */
  datatype UpdateStep = UpdatePrepare | UpdateExec

  /** `Store(ctx, user *User) error`: the table after the call, the caller's
      `*user` after the call, and the error. */
  datatype Stored = Stored(table: Table, user: User, err: Option<Error>)

  /** The table and the error after an update statement. */
  datatype Updated = Updated(table: Table, err: Option<Error>)

  /** `insert into user (username, password, nickname, profile_image)`: the
      id column is left to the auto-increment counter. */
  function Insert(t: Table, u: User): Table
  {
    Table(t.rows[t.nextId := u.(id := t.nextId)], t.nextId + 1)
  }

  /** `Store`: prepare, exec, then read the assigned id back into the caller's user.
      Once the counter is past the column's range the insert fails like a failed exec. */
  function Store(t: Table, u: User, fault: Option<InsertStep>): (r: Stored)
    ensures WellFormed(t) ==> WellFormed(r.table)
    // success: a fresh row carrying a new id, written back into the caller's user
    ensures r.err.None? <==> fault.None? && t.nextId <= MaxId
    ensures r.err.None? ==>
      && r.user == u.(id := t.nextId)
      && (WellFormed(t) ==> t.nextId !in t.rows)
      && r.table.nextId == t.nextId + 1
      && r.table.rows == t.rows[r.user.id := r.user]
    // any failure leaves the caller's user as it was
    ensures r.err.Some? ==> r.user == u
    // prepare or exec failure: nothing is written
    ensures r.err.Some? && fault != Some(InsertLastId) ==> r.table == t
    // at most the one new row appears
    ensures r.table.rows.Keys <= t.rows.Keys + {t.nextId}
    // the existing rows never change
    ensures WellFormed(t) ==> forall id :: id in t.rows ==> id in r.table.rows && r.table.rows[id] == t.rows[id]
  {
    match fault
    case Some(InsertPrepare) => Stored(t, u, Some(StoreFailure))
    case Some(InsertExec) => Stored(t, u, Some(StoreFailure))
    case _ =>
      if t.nextId > MaxId then Stored(t, u, Some(StoreFailure))
      else if fault == Some(InsertLastId) then Stored(Insert(t, u), u, Some(StoreFailure))
      else Stored(Insert(t, u), u.(id := t.nextId), None)
  }

  /** `select * from user where id = ?` scanned into a user. */
  function GetByID(t: Table, id: int, fails: bool): (r: Reply)
    ensures r.err.None? <==> !fails && id in t.rows
    ensures r.err.None? ==> r.user == t.rows[id]
    ensures r.err.None? && WellFormed(t) ==> r.user.id == id
    ensures r.err.Some? ==> IsFailure(r)
    ensures !fails && id !in t.rows ==> r.err == Some(NoRows)
  {
    if fails then Reply(Empty, Some(StoreFailure))
    else if id !in t.rows then Reply(Empty, Some(NoRows))
    else Reply(t.rows[id], None)
  }

  /** The username column's collation, as a key: `where username = ?` matches
      two names exactly when their keys are equal. The column declares no
      collation, so the server's default applies (case-insensitive, and
      depending on the server version accent-insensitive or blind to trailing
      spaces); which one it is, is configuration, hence a parameter. */
  type Collation = string -> string

  /** The row's username matches `name` under the collation. */
  predicate Matches(fold: Collation, u: User, name: string)
  {
    fold(u.username) == fold(name)
  }

  /** `id` is the lowest id whose row matches `name`: the row a lookup returns. */
  predicate FirstMatch(t: Table, fold: Collation, name: string, id: int)
  {
    && id in t.rows && Matches(fold, t.rows[id], name)
    && forall j :: j in t.rows && j < id ==> !Matches(fold, t.rows[j], name)
  }

  /** The lowest id in `from .. to - 1` whose row matches the given username. */
  function FirstWithName(rows: map<int, User>, fold: Collation, name: string, from: int, to: int): (r: Option<int>)
    decreases to - from
    ensures r.Some? ==> from <= r.value < to && r.value in rows && Matches(fold, rows[r.value], name)
    ensures r.Some? ==> forall id :: from <= id < r.value && id in rows ==> !Matches(fold, rows[id], name)
    ensures r.None? ==> forall id :: from <= id < to && id in rows ==> !Matches(fold, rows[id], name)
  {
    if from >= to then None
    else if from in rows && Matches(fold, rows[from], name) then Some(from)
    else FirstWithName(rows, fold, name, from + 1, to)
  }

  /** `select * from user where username = ?` read with `QueryRow`. The
      username index is not unique, so several rows may match; the model
      answers with the one of lowest id. */
  function GetByUsername(t: Table, fold: Collation, name: string, fails: bool): (r: Reply)
    ensures r.err.None? ==> !fails && Matches(fold, r.user, name) && r.user in t.rows.Values
    ensures WellFormed(t) ==>
      (r.err.None? <==> !fails && exists id :: id in t.rows && Matches(fold, t.rows[id], name))
    ensures WellFormed(t) && r.err.None? ==>
      && r.user.id in t.rows && t.rows[r.user.id] == r.user
      && forall id :: id in t.rows && Matches(fold, t.rows[id], name) ==> r.user.id <= id
    ensures r.err.Some? ==> IsFailure(r)
    ensures r.err.Some? && !fails ==> r.err == Some(NoRows)
    // the first matching row is the answer
    ensures WellFormed(t) && !fails ==> forall id :: FirstMatch(t, fold, name, id) ==> r == Reply(t.rows[id], None)
  {
    if fails then Reply(Empty, Some(StoreFailure))
    else match FirstWithName(t.rows, fold, name, 1, t.nextId)
      case None => Reply(Empty, Some(NoRows))
      case Some(id) => Reply(t.rows[id], None)
  }

  /** `update user set nickname = ? where id = ?`: an id with no row matches
      nothing and is not an error. */
  function UpdateNickname(t: Table, id: int, nickname: string, fault: Option<UpdateStep>): (r: Updated)
    ensures WellFormed(t) ==> WellFormed(r.table)
    ensures r.err.None? <==> fault.None?
    ensures r.err.Some? ==> r.table == t
    ensures r.table.nextId == t.nextId && r.table.rows.Keys == t.rows.Keys
    ensures r.err.None? && id in t.rows ==> r.table.rows[id] == t.rows[id].(nickname := Valid(nickname))
    ensures forall other :: other in t.rows && other != id ==> r.table.rows[other] == t.rows[other]
  {
    if fault.Some? then Updated(t, Some(StoreFailure))
    else if id !in t.rows then Updated(t, None)
    else Updated(t.(rows := t.rows[id := t.rows[id].(nickname := Valid(nickname))]), None)
  }

  /** `update user set profile_image = ? where id = ?`, bound in that order. */
  function UpdateProfileImage(t: Table, id: int, image: string, fault: Option<UpdateStep>): (r: Updated)
    ensures WellFormed(t) ==> WellFormed(r.table)
    ensures r.err.None? <==> fault.None?
    ensures r.err.Some? ==> r.table == t
    ensures r.table.nextId == t.nextId && r.table.rows.Keys == t.rows.Keys
    ensures r.err.None? && id in t.rows ==> r.table.rows[id] == t.rows[id].(profileImage := Valid(image))
    ensures forall other :: other in t.rows && other != id ==> r.table.rows[other] == t.rows[other]
  {
    if fault.Some? then Updated(t, Some(StoreFailure))
    else if id !in t.rows then Updated(t, None)
    else Updated(t.(rows := t.rows[id := t.rows[id].(profileImage := Valid(image))]), None)
  }

  /** Round trip: a stored user reads back by its new id with the fields it was stored with. */
  lemma StoreThenGetByID(t: Table, u: User)
    requires t.nextId <= MaxId
    ensures var s := Store(t, u, None);
      s.err.None? && GetByID(s.table, s.user.id, false) == Reply(u.(id := t.nextId), None)
  {
  }

  /** Ids are never reused: a stored user gets an id no earlier row had, and
      two successive stores get different ids. */
  lemma StoreAssignsFreshIds(t: Table, a: User, b: User)
    requires WellFormed(t) && t.nextId + 1 <= MaxId
    ensures var s1 := Store(t, a, None);
      var s2 := Store(s1.table, b, None);
      && s1.user.id !in t.rows
      && s2.user.id !in s1.table.rows
      && s1.user.id != s2.user.id
  {
  }

  /** An update reads back: after a successful nickname or profile-image
      update of an existing row, `GetByID` gives the row with the new value
      and every other field as before. */
  lemma UpdateThenGetByID(t: Table, id: int, value: string)
    requires id in t.rows
    ensures GetByID(UpdateNickname(t, id, value, None).table, id, false)
            == Reply(t.rows[id].(nickname := Valid(value)), None)
    ensures GetByID(UpdateProfileImage(t, id, value, None).table, id, false)
            == Reply(t.rows[id].(profileImage := Valid(value)), None)
  {
  }

  /** A user stored under a username that matches no existing row under the
      collation is what a lookup by that username finds. */
  lemma StoreThenGetByUsername(t: Table, fold: Collation, u: User)
    requires WellFormed(t) && t.nextId <= MaxId
    requires forall id :: id in t.rows ==> !Matches(fold, t.rows[id], u.username)
    ensures var s := Store(t, u, None);
      GetByUsername(s.table, fold, u.username, false) == Reply(s.user, None)
  {
    var s := Store(t, u, None);
    assert Matches(fold, s.table.rows[t.nextId], u.username);
  }

  /** The search depends on the name only through its collation key. */
  lemma FirstWithNameUnderCollation(rows: map<int, User>, fold: Collation, a: string, b: string, from: int, to: int)
    requires fold(a) == fold(b)
    ensures FirstWithName(rows, fold, a, from, to) == FirstWithName(rows, fold, b, from, to)
  {
  }

  /** Two names the collation does not tell apart find the same row: with a
      case-insensitive collation, "ALICE" logs in as "alice". */
  lemma GetByUsernameUnderCollation(t: Table, fold: Collation, a: string, b: string, fails: bool)
    requires fold(a) == fold(b)
    ensures GetByUsername(t, fold, a, fails) == GetByUsername(t, fold, b, fails)
  {
  }
}

=== FILE: redis_repo.dfy ===
/** The cache (internal/user/repository/redis_user.go): string keys, the
    decimal text of the user id, holding the JSON of a user. Whether a GET or
    SET command fails (connection lost, pool exhausted) is a parameter; a
    failed command changes nothing. */
module RedisRepo {

  import opened Wrappers
  import opened Models
  import Decimal

  type Cache = map<string, Payload>

  /** The cache outcome of a write: the cache afterwards and the error. */
  datatype Written = Written(cache: Cache, err: Option<Error>)

  /** `strconv.Itoa(int(user.ID))`. */
  function Key(id: int): string
  {
    Decimal.Itoa(id)
  }

  /** The value cached for a user id, if any. */
  function Entry(c: Cache, id: int): Option<Payload>
  {
    if Key(id) in c then Some(c[Key(id)]) else None
  }

  /** Every decodable entry sits under the key of the id it carries, as `Store` writes it. */
  predicate Aligned(c: Cache)
  {
    forall k :: k in c && c[k].Json? ==> k == Key(c[k].user.id)
  }

  lemma KeyInjective()
    ensures forall m, n :: Key(m) == Key(n) ==> m == n
  {
    forall m, n | Key(m) == Key(n)
      ensures m == n
    {
      Decimal.ItoaInjective(m, n);
    }
  }

  /** `Store`: `SET <id> <json>`. Marshalling a `User` cannot fail. */
  function Store(c: Cache, u: User, setFails: bool): (w: Written)
    ensures w.err.None? <==> !setFails
    ensures w.err.Some? ==> w.cache == c
    ensures w.err.None? ==> Entry(w.cache, u.id) == Some(Json(u))
    ensures forall id :: id != u.id ==> Entry(w.cache, id) == Entry(c, id)
    ensures Aligned(c) ==> Aligned(w.cache)
  {
    KeyInjective();
    if setFails then Written(c, Some(StoreFailure))
    else Written(c[Key(u.id) := Json(u)], None)
  }

  /** `GetByID`: `GET <id>` then decode. A miss and a failed command give the
      same answer, the zero user with an error. */
  function GetByID(c: Cache, id: int, getFails: bool): (r: Reply)
    ensures r.err.None? <==> !getFails && Entry(c, id).Some? && Entry(c, id).value.Json?
    ensures r.err.None? ==> Entry(c, id) == Some(Json(r.user))
    ensures r.err.Some? ==> IsFailure(r)
    ensures !getFails && Entry(c, id).None? ==> r.err == Some(CacheMiss)
    ensures !getFails && Entry(c, id) == Some(Malformed) ==> r.err == Some(BadPayload)
  {
    if getFails then Reply(Empty, Some(StoreFailure))
    else if Key(id) !in c then Reply(Empty, Some(CacheMiss))
    else match c[Key(id)]
      case Malformed => Reply(Empty, Some(BadPayload))
      case Json(u) => Reply(u, None)
  }

  /** `GetByUsername`: the cache has no username index; it answers every
      lookup with the zero user and no error. */
  function GetByUsername(c: Cache, name: string): (r: Reply)
    ensures r.err.None? && r.user == Empty
  {
    Reply(Empty, None)
  }

  /** `UpdateNickname`: read the cached user, set its nickname, store it back. */
  function UpdateNickname(c: Cache, id: int, nickname: string, getFails: bool, setFails: bool): (w: Written)
    ensures w.err.None? <==> !getFails && !setFails && Entry(c, id).Some? && Entry(c, id).value.Json?
    ensures w.err.Some? ==> w.cache == c
    ensures !getFails && Entry(c, id).None? ==> w.err == Some(CacheMiss)
    ensures Aligned(c) ==> Aligned(w.cache)
    ensures Aligned(c) && w.err.None? ==>
      && Entry(w.cache, id) == Some(Json(Entry(c, id).value.user.(nickname := Valid(nickname))))
      && forall other :: other != id ==> Entry(w.cache, other) == Entry(c, other)
  {
    var r := GetByID(c, id, getFails);
    if r.err.Some? then Written(c, r.err)
    else Store(c, r.user.(nickname := Valid(nickname)), setFails)
  }

  /** `UpdateProfileImage`: the same read-modify-write on the profile image. */
  function UpdateProfileImage(c: Cache, id: int, image: string, getFails: bool, setFails: bool): (w: Written)
    ensures w.err.None? <==> !getFails && !setFails && Entry(c, id).Some? && Entry(c, id).value.Json?
    ensures w.err.Some? ==> w.cache == c
    ensures !getFails && Entry(c, id).None? ==> w.err == Some(CacheMiss)
    ensures Aligned(c) ==> Aligned(w.cache)
    ensures Aligned(c) && w.err.None? ==>
      && Entry(w.cache, id) == Some(Json(Entry(c, id).value.user.(profileImage := Valid(image))))
      && forall other :: other != id ==> Entry(w.cache, other) == Entry(c, other)
  {
    var r := GetByID(c, id, getFails);
    if r.err.Some? then Written(c, r.err)
    else Store(c, r.user.(profileImage := Valid(image)), setFails)
  }

  /** Round trip: what `Store` wrote, `GetByID` reads back. */
  lemma StoreThenGetByID(c: Cache, u: User)
    ensures GetByID(Store(c, u, false).cache, u.id, false) == Reply(u, None)
  {
  }

  /** The key of a stored user is the decimal text of its id: user 1 goes under "1". */
  lemma StoreKeyExample(c: Cache, u: User)
    requires u.id == 1
    ensures "1" in Store(c, u, false).cache && Store(c, u, false).cache["1"] == Json(u)
  {
  }

  /** A cache update reads back: the cached user of `id` now carries the new
      nickname, and the new profile image respectively. */
  lemma UpdateThenGetByID(c: Cache, id: int, value: string)
    requires Aligned(c) && Entry(c, id).Some? && Entry(c, id).value.Json?
    ensures GetByID(UpdateNickname(c, id, value, false, false).cache, id, false)
            == Reply(Entry(c, id).value.user.(nickname := Valid(value)), None)
    ensures GetByID(UpdateProfileImage(c, id, value, false, false).cache, id, false)
            == Reply(Entry(c, id).value.user.(profileImage := Valid(value)), None)
  {
  }
}

=== FILE: temp_repo.dfy ===
/** The alternative combined repository (internal/user/temprepo/user_repository.go):
    one value holding both the relational store and a cache connection, with
    read-through lookups that write what the table returned back to the cache. */
module TempRepo {

  import opened Wrappers
  import opened Models
  import Db = MysqlRepo
  import Cache = RedisRepo
  import opened TwoStores
  import Decimal

  /** Which calls of a read-through `GetByID` fail: the cache GET, the table
      query, the cache SET that repopulates. */
  datatype ReadFaults = ReadFaults(cacheGet: bool, db: bool, cacheSet: bool)

  /** Which commands of `SetUserToCacheIfExist` fail: GET, DEL, SET (`put`). */
  datatype IfExistFaults = IfExistFaults(get: bool, del: bool, put: bool)

  /** `Store`: the same insert as the relational repository; the cache is not touched. */
  function Store(s: Stores, u: User, fault: Option<Db.InsertStep>): (r: Stored)
    ensures r.stores.cache == s.cache
    ensures r.err.None? <==> fault.None? && s.db.nextId <= Db.MaxId
    ensures r.err.None? ==>
      && r.user == u.(id := s.db.nextId)
      && r.user.id in r.stores.db.rows && r.stores.db.rows[r.user.id] == r.user
    ensures r.err.Some? ==> r.user == u
    // no existing row changes
    ensures r.stores.db.rows.Keys <= s.db.rows.Keys + {s.db.nextId}
    ensures Db.WellFormed(s.db) ==>
      forall id :: id in s.db.rows ==> id in r.stores.db.rows && r.stores.db.rows[id] == s.db.rows[id]
  {
    var d := Db.Store(s.db, u, fault);
    Stored(s.(db := d.table), d.user, d.err)
  }

  /** `SetUserToCache`: `SET <id> <json>`, overwriting whatever was there. */
  function SetUserToCache(c: Cache.Cache, u: User, setFails: bool): (w: Cache.Written)
    ensures w.err.None? <==> !setFails
    ensures w.err.Some? ==> w.cache == c
    ensures w.err.None? ==> Cache.Entry(w.cache, u.id) == Some(Json(u))
    ensures forall id :: id != u.id ==> Cache.Entry(w.cache, id) == Cache.Entry(c, id)
    ensures Cache.Aligned(c) ==> Cache.Aligned(w.cache)
  {
    Cache.Store(c, u, setFails)
  }

  /** `SetUserToCacheIfExist`: GET the key; if it exists DEL it; then SET the
      user. Whether or not the key existed, success leaves the user cached.
      A failed SET after a successful DEL leaves the key absent. */
  function SetUserToCacheIfExist(c: Cache.Cache, u: User, f: IfExistFaults): (w: Cache.Written)
    ensures w.err.None? <==> !f.get && !f.put && (Cache.Entry(c, u.id).Some? ==> !f.del)
    ensures w.err.None? ==> Cache.Entry(w.cache, u.id) == Some(Json(u))
    ensures forall id :: id != u.id ==> Cache.Entry(w.cache, id) == Cache.Entry(c, id)
    // a failed GET, or a failed DEL of an existing key, changes nothing
    ensures f.get || (Cache.Entry(c, u.id).Some? && f.del) ==> w.cache == c
    // DEL succeeded, SET failed: the entry is gone
    ensures !f.get && Cache.Entry(c, u.id).Some? && !f.del && f.put ==> Cache.Entry(w.cache, u.id).None?
    ensures Cache.Aligned(c) ==> Cache.Aligned(w.cache)
  {
    var key := Cache.Key(u.id);
    Cache.KeyInjective();
    if f.get then Cache.Written(c, Some(StoreFailure))
    else if key in c then
      if f.del then Cache.Written(c, Some(StoreFailure))
      else SetUserToCache(c - {key}, u, f.put)
    else SetUserToCache(c, u, f.put)
  }

  /** `GetByID`: the cache first. On any GET error (a miss or a failed
      command) the table answers and its row is written back to the cache; if
      that write fails, the row is returned together with the error. A cached
      value that does not decode is an error, with no fallback to the table. */
  function GetByID(s: Stores, id: int, f: ReadFaults): (r: Read)
    ensures r.stores.db == s.db
    // a cache hit is returned as it is and nothing is written
    ensures !f.cacheGet && HasUser(s.cache, id) ==> r == Read(s, Reply(CachedUser(s.cache, id), None))
    // a bad cached payload is an error, whatever the table holds
    ensures !f.cacheGet && Cache.Entry(s.cache, id) == Some(Malformed) ==>
      r == Read(s, Reply(Empty, Some(BadPayload)))
    // a miss the table cannot answer either: the zero user with an error, the cache as it was
    ensures (f.cacheGet || Cache.Entry(s.cache, id).None?) && (f.db || id !in s.db.rows) ==>
      r.stores == s && IsFailure(r.reply)
    // a miss the table answers: the row, written back to the cache unless that write failed
    ensures (f.cacheGet || Cache.Entry(s.cache, id).None?) && !f.db && id in s.db.rows ==>
      && r.reply.user == s.db.rows[id]
      && (r.reply.err.None? <==> !f.cacheSet)
      && (f.cacheSet ==> r.stores == s)
      && (!f.cacheSet ==> Cache.Entry(r.stores.cache, s.db.rows[id].id) == Some(Json(s.db.rows[id])))
    ensures Cache.Aligned(s.cache) ==> Cache.Aligned(r.stores.cache)
    // repopulation writes the entry of `id` only
    ensures Db.WellFormed(s.db) ==>
      forall other :: other != id ==> Cache.Entry(r.stores.cache, other) == Cache.Entry(s.cache, other)
    // the user answered is the one of `id`
    ensures Db.WellFormed(s.db) && Cache.Aligned(s.cache) && r.reply.err.None? ==> r.reply.user.id == id
  {
    Cache.KeyInjective();
    if f.cacheGet || Cache.Key(id) !in s.cache then
      var d := Db.GetByID(s.db, id, f.db);
      if d.err.Some? then Read(s, Reply(Empty, d.err))
      else
        var w := SetUserToCache(s.cache, d.user, f.cacheSet);
        Read(s.(cache := w.cache), Reply(d.user, w.err))
    else match s.cache[Cache.Key(id)]
      case Malformed => Read(s, Reply(Empty, Some(BadPayload)))
      case Json(u) => Read(s, Reply(u, None))
  }

  /** `GetByUsername`: the table alone. */
  function GetByUsername(s: Stores, fold: Db.Collation, name: string, dbFails: bool): (r: Reply)
    ensures r.err.None? ==> !dbFails && Db.Matches(fold, r.user, name) && r.user in s.db.rows.Values
    ensures r.err.Some? ==> IsFailure(r)
    ensures Db.WellFormed(s.db) ==>
      (r.err.None? <==> !dbFails && exists id :: id in s.db.rows && Db.Matches(fold, s.db.rows[id], name))
    ensures Db.WellFormed(s.db) && !dbFails ==>
      forall id :: Db.FirstMatch(s.db, fold, name, id) ==> r == Reply(s.db.rows[id], None)
  {
    Db.GetByUsername(s.db, fold, name, dbFails)
  }

  /** The part `UpdateNickname` and `UpdateProfileImage` share once the table
      statement succeeded: read the user back through `GetByID` and cache it. */
  function Recache(s: Stores, id: int, read: ReadFaults, ifExist: IfExistFaults): (r: Written)
    ensures r.stores.db == s.db
    ensures Cache.Aligned(s.cache) ==> Cache.Aligned(r.stores.cache)
    ensures Db.WellFormed(s.db) && Cache.Aligned(s.cache) ==>
      forall other :: other != id ==> Cache.Entry(r.stores.cache, other) == Cache.Entry(s.cache, other)
  {
    var g := GetByID(s, id, read);
    if g.reply.err.Some? then Written(g.stores, g.reply.err)
    else
      var w := SetUserToCacheIfExist(g.stores.cache, g.reply.user, ifExist);
      Written(g.stores.(cache := w.cache), w.err)
  }

  /** `UpdateNickname`: the table first; a table failure returns at once.
      Then the user is read back through the cache-preferring `GetByID` and
      written to the cache, so a user that was already cached keeps its old
      nickname there. */
  function UpdateNickname(s: Stores, id: int, nickname: string, dbFault: Option<Db.UpdateStep>,
                          read: ReadFaults, ifExist: IfExistFaults): (r: Written)
    ensures dbFault.Some? ==> r.stores == s && r.err.Some?
    ensures r.err.None? ==> dbFault.None?
    // once the table committed, a failing cache step is still reported as an error
    ensures dbFault.None? && (ifExist.get || ifExist.put) ==> r.err.Some?
    ensures dbFault.None? && Db.WellFormed(s.db) && id in s.db.rows
            && (read.cacheGet || Cache.Entry(s.cache, id).None?) && !read.db && read.cacheSet ==>
      r.err.Some?
    // the table holds the new nickname whatever happens in the cache afterwards
    ensures dbFault.None? && id in s.db.rows ==>
      id in r.stores.db.rows && r.stores.db.rows[id] == s.db.rows[id].(nickname := Valid(nickname))
    // a user already cached stays cached with its pre-update value
    ensures Cache.Aligned(s.cache) && HasUser(s.cache, id) && dbFault.None?
            && read == ReadFaults(false, false, false) && ifExist == IfExistFaults(false, false, false) ==>
      r.err.None? && r.stores.cache == s.cache
    // a user not cached gets cached with the new nickname
    ensures Db.WellFormed(s.db) && Cache.Entry(s.cache, id).None? && id in s.db.rows && dbFault.None?
            && read == ReadFaults(false, false, false) && ifExist == IfExistFaults(false, false, false) ==>
      && r.err.None?
      && Cache.Entry(r.stores.cache, id) == Some(Json(s.db.rows[id].(nickname := Valid(nickname))))
    // no other row and, for a well-formed table and an aligned cache, no other entry changes
    ensures r.stores.db.rows.Keys == s.db.rows.Keys
    ensures forall other :: other in s.db.rows && other != id ==> r.stores.db.rows[other] == s.db.rows[other]
    ensures Db.WellFormed(s.db) && Cache.Aligned(s.cache) ==>
      forall other :: other != id ==> Cache.Entry(r.stores.cache, other) == Cache.Entry(s.cache, other)
  {
    var d := Db.UpdateNickname(s.db, id, nickname, dbFault);
    if d.err.Some? then Written(s, d.err)
    else Recache(s.(db := d.table), id, read, ifExist)
  }

  /** `UpdateProfileImage` with the statement's arguments bound in the order
      its placeholders name them, `(profile_image, id)`. */
  function UpdateProfileImage(s: Stores, id: int, image: string, dbFault: Option<Db.UpdateStep>,
                              read: ReadFaults, ifExist: IfExistFaults): (r: Written)
    ensures dbFault.Some? ==> r.stores == s && r.err.Some?
    ensures r.err.None? ==> dbFault.None?
    // once the table committed, a failing cache step is still reported as an error
    ensures dbFault.None? && (ifExist.get || ifExist.put) ==> r.err.Some?
    ensures dbFault.None? && Db.WellFormed(s.db) && id in s.db.rows
            && (read.cacheGet || Cache.Entry(s.cache, id).None?) && !read.db && read.cacheSet ==>
      r.err.Some?
    ensures dbFault.None? && id in s.db.rows ==>
      id in r.stores.db.rows && r.stores.db.rows[id] == s.db.rows[id].(profileImage := Valid(image))
    // a user already cached stays cached with its pre-update value
    ensures Cache.Aligned(s.cache) && HasUser(s.cache, id) && dbFault.None?
            && read == ReadFaults(false, false, false) && ifExist == IfExistFaults(false, false, false) ==>
      r.err.None? && r.stores.cache == s.cache
    // a user not cached gets cached with the new image
    ensures Db.WellFormed(s.db) && Cache.Entry(s.cache, id).None? && id in s.db.rows && dbFault.None?
            && read == ReadFaults(false, false, false) && ifExist == IfExistFaults(false, false, false) ==>
      && r.err.None?
      && Cache.Entry(r.stores.cache, id) == Some(Json(s.db.rows[id].(profileImage := Valid(image))))
    // no other row and, for a well-formed table and an aligned cache, no other entry changes
    ensures r.stores.db.rows.Keys == s.db.rows.Keys
    ensures forall other :: other in s.db.rows && other != id ==> r.stores.db.rows[other] == s.db.rows[other]
    ensures Db.WellFormed(s.db) && Cache.Aligned(s.cache) ==>
      forall other :: other != id ==> Cache.Entry(r.stores.cache, other) == Cache.Entry(s.cache, other)
  {
    var d := Db.UpdateProfileImage(s.db, id, image, dbFault);
    if d.err.Some? then Written(s, d.err)
    else Recache(s.(db := d.table), id, read, ifExist)
  }

  /** `update user set profile_image = ? where id = ?` executed, as the code
      does, with the arguments `(id, profile_image)`: the decimal text of `id`
      becomes the profile image of the row, if any, whose id compares equal to
      the image name. Which row that is depends on MySQL's conversion of the
      string to a number and is the parameter `selected`. */
  function UpdateProfileImageAsWritten(s: Stores, id: int, image: string, selected: Option<int>,
                                       dbFault: Option<Db.UpdateStep>,
                                       read: ReadFaults, ifExist: IfExistFaults): (r: Written)
    ensures dbFault.Some? ==> r.stores == s && r.err.Some?
    ensures r.err.None? ==> dbFault.None?
    // once the table committed, a failing cache step is still reported as an error
    ensures dbFault.None? && (ifExist.get || ifExist.put) ==> r.err.Some?
    ensures dbFault.None? && Db.WellFormed(s.db) && id in s.db.rows
            && (read.cacheGet || Cache.Entry(s.cache, id).None?) && !read.db && read.cacheSet ==>
      r.err.Some?
    // the row addressed by `id` changes only if the image name happens to select it
    ensures selected != Some(id) && id in s.db.rows ==>
      id in r.stores.db.rows && r.stores.db.rows[id] == s.db.rows[id]
  {
    if dbFault.Some? then Written(s, Some(StoreFailure))
    else
      var rows :=
        if selected.Some? && selected.value in s.db.rows
        then s.db.rows[selected.value := s.db.rows[selected.value].(profileImage := Valid(Decimal.Itoa(id)))]
        else s.db.rows;
      Recache(s.(db := s.db.(rows := rows)), id, read, ifExist)
  }


  /** Read-through: after a miss answered by the table, the next read is a
      cache hit returning the same user, with no table query needed. */
  lemma ReadThroughRepopulates(s: Stores, id: int, cacheGetFails: bool, later: ReadFaults)
    requires Db.WellFormed(s.db) && id in s.db.rows
    requires cacheGetFails || Cache.Entry(s.cache, id).None?
    requires !later.cacheGet
    ensures var first := GetByID(s, id, ReadFaults(cacheGetFails, false, false));
      var second := GetByID(first.stores, id, later);
      && first.reply == Reply(s.db.rows[id], None)
      && second == Read(first.stores, first.reply)
  {
  }

  /** The stale-cache consequence of `UpdateNickname`: when the user was
      cached, the update succeeds, the table has the new nickname, and a read
      served by the cache still returns the old one. */
  lemma UpdateNicknameKeepsStaleCache(s: Stores, id: int, nickname: string)
    requires Db.WellFormed(s.db) && Cache.Aligned(s.cache)
    requires HasUser(s.cache, id) && id in s.db.rows
    requires CachedUser(s.cache, id).nickname != Valid(nickname)
    ensures var r := UpdateNickname(s, id, nickname, None, ReadFaults(false, false, false), IfExistFaults(false, false, false));
      && r.err.None?
      && r.stores.db.rows[id].nickname == Valid(nickname)
      && GetByID(r.stores, id, ReadFaults(false, false, false)).reply.user.nickname != Valid(nickname)
  {
  }

  /** The swapped arguments, on a concrete table: updating user 1's image to
      "a.png", a name that selects no row, reports success and leaves user 1's
      image unchanged. */
  lemma SwappedBindMissesTarget()
    ensures var alice := User(1, "alice", "hash", Null, Null);
      var s := Stores(Db.Table(map[1 := alice], 2), map[]);
      var none := ReadFaults(false, false, false);
      var noneIf := IfExistFaults(false, false, false);
      var r := UpdateProfileImageAsWritten(s, 1, "a.png", None, None, none, noneIf);
      && r.err.None?
      && r.stores.db.rows[1].profileImage == Null
      && UpdateProfileImage(s, 1, "a.png", None, none, noneIf).stores.db.rows[1].profileImage == Valid("a.png")
  {
  }

  /** When no command fails, deleting the key before setting it changes
      nothing: `SetUserToCacheIfExist` leaves the same cache as `SetUserToCache`. */
  lemma IfExistAgreesWithSet(c: Cache.Cache, u: User)
    ensures SetUserToCacheIfExist(c, u, IfExistFaults(false, false, false)) == SetUserToCache(c, u, false)
  {
  }
}

=== FILE: text.dfy ===
/** The few functions of Go's `strings` package the gate and the helpers use. */
module Text {

  /** `sub` occurs in `s` starting at index `i`. */
  predicate OccursAt(s: string, sub: string, i: int)
  {
    0 <= i <= |s| - |sub| && s[i..i + |sub|] == sub
  }

  /** `strings.Contains`: `sub` occurs somewhere in `s`. */
  predicate Contains(s: string, sub: string)
  {
    exists i :: 0 <= i <= |s| - |sub| && OccursAt(s, sub, i)
  }

  /** `s` begins with `p`. */
  predicate StartsWith(s: string, p: string)
  {
    |p| <= |s| && s[..|p|] == p
  }

  /** An occurrence one character in is an occurrence of the whole string. */
  lemma ContainsTail(s: string, sub: string)
    requires |s| > 0
    ensures Contains(s[1..], sub) ==> Contains(s, sub)
  {
    if Contains(s[1..], sub) {
      var i :| 0 <= i <= |s[1..]| - |sub| && OccursAt(s[1..], sub, i);
      assert s[i + 1..i + 1 + |sub|] == sub;
      assert OccursAt(s, sub, i + 1);
    }
  }

  /** `strings.Replace(s, pat, "", -1)` for a non-empty `pat`: the
      occurrences found scanning left to right, each after the previous one,
      are removed. */
  function RemoveAll(s: string, pat: string): (r: string)
    requires |pat| > 0
    decreases |s|
    ensures |r| <= |s|
    ensures !Contains(s, pat) ==> r == s
  {
    if |s| < |pat| then s
    else if StartsWith(s, pat) then
      assert OccursAt(s, pat, 0);
      RemoveAll(s[|pat|..], pat)
    else
      ContainsTail(s, pat);
      [s[0]] + RemoveAll(s[1..], pat)
  }

  /** One character of `strings.ToLower`: the letters A-Z, and the two
      non-ASCII characters whose lower case is an ASCII letter, U+0130
      (dotted capital I) and U+212A (Kelvin sign). */
  function LowerChar(c: char): (l: char)
    ensures 'A' <= c <= 'Z' ==> l as int == c as int + 32
    ensures l != c ==> ('A' <= c <= 'Z' || c == 'İ' || c == 'K')
  {
    if 'A' <= c <= 'Z' then (c as int + 32) as char
    else if c == 'İ' then 'i'
    else if c == 'K' then 'k'
    else c
  }

  /** A string that lacks one of the characters of `sub` does not contain `sub`. */
  lemma MissingCharNotContained(s: string, sub: string, c: char)
    requires c in sub && c !in s
    ensures !Contains(s, sub)
  {
  }

  /** `strings.ToLower`, as far as `LowerChar` models it. */
  function ToLower(s: string): (r: string)
    ensures |r| == |s|
    ensures forall i :: 0 <= i < |s| ==> r[i] == LowerChar(s[i])
  {
    seq(|s|, i requires 0 <= i < |s| => LowerChar(s[i]))
  }

  /** Lower-casing twice is lower-casing once. */
  lemma ToLowerIdempotent(s: string)
    ensures ToLower(ToLower(s)) == ToLower(s)
  {
  }
}

=== FILE: two_stores.dfy ===
/** The state shared by the two repositories that combine the relational
    store with the cache: the orchestrator of internal/user/usecase/user_usecase.go
    and the combined repository of internal/user/temprepo/user_repository.go. */
module TwoStores {

  import opened Wrappers
  import opened Models
  import Db = MysqlRepo
  import Cache = RedisRepo

  /** The relational table and the cache. */
  datatype Stores = Stores(db: Db.Table, cache: Cache.Cache)

  /** `Store(ctx, user *User) error`: both stores, the caller's user and the error. */
  datatype Stored = Stored(stores: Stores, user: User, err: Option<Error>)

  /** A lookup: both stores afterwards and the `(*User, error)` answer. */
  datatype Read = Read(stores: Stores, reply: Reply)

  /** An update: both stores afterwards and the error. */
  datatype Written = Written(stores: Stores, err: Option<Error>)

  /** The cache holds a decodable user for `id`. */
  predicate HasUser(c: Cache.Cache, id: int)
  {
    Cache.Entry(c, id).Some? && Cache.Entry(c, id).value.Json?
  }

  /** The user the cache holds for `id`. */
  function CachedUser(c: Cache.Cache, id: int): User
    requires HasUser(c, id)
  {
    Cache.Entry(c, id).value.user
  }

  /** What the code keeps true of the two stores: a well-formed table, each
      cached user under its own key, and no cache key for an id without a row. */
  ghost predicate Consistent(s: Stores)
  {
    && Db.WellFormed(s.db)
    && Cache.Aligned(s.cache)
    && forall id :: Cache.Entry(s.cache, id).Some? ==> id in s.db.rows
  }

  /** The cache is never ahead of the table: every decodable cached user is
      exactly the row of its id. */
  ghost predicate Mirrors(s: Stores)
  {
    forall id :: HasUser(s.cache, id) ==> id in s.db.rows && s.db.rows[id] == CachedUser(s.cache, id)
  }
}

=== FILE: usecase.dfy ===
/** The consistency orchestrator (internal/user/usecase/user_usecase.go),
    composed as the application wires it: the relational store is the
    authoritative repository, the cache the other. Each call's failures are
    parameters and are passed on to the store call they belong to. */
module Usecase {

  import opened Wrappers
  import opened Models
  import Db = MysqlRepo
  import Cache = RedisRepo
  import opened TwoStores

  /** `Store`: the table first; only after it succeeded, the cache, whose
      failure is logged and swallowed. */
  function Store(s: Stores, u: User, dbFault: Option<Db.InsertStep>, cacheSetFails: bool): (r: Stored)
    // the outcome depends on the table alone
    ensures r.err.None? <==> dbFault.None? && s.db.nextId <= Db.MaxId
    // a failed table write is surfaced and the cache is never written
    ensures r.err.Some? ==> r.stores.cache == s.cache && r.user == u
    // success: the row and the caller's user carry the id just assigned
    ensures r.err.None? ==>
      && r.user == u.(id := s.db.nextId)
      && r.user.id in r.stores.db.rows && r.stores.db.rows[r.user.id] == r.user
    // the cache receives that same user, unless its write failed
    ensures r.err.None? && !cacheSetFails ==> Cache.Entry(r.stores.cache, r.user.id) == Some(Json(r.user))
    ensures r.err.None? && cacheSetFails ==> r.stores.cache == s.cache
    // nothing else changes: no existing row, and no cache entry of another id
    ensures r.stores.db.rows.Keys <= s.db.rows.Keys + {s.db.nextId}
    ensures Db.WellFormed(s.db) ==>
      forall id :: id in s.db.rows ==> id in r.stores.db.rows && r.stores.db.rows[id] == s.db.rows[id]
    ensures forall id :: id != r.user.id ==> Cache.Entry(r.stores.cache, id) == Cache.Entry(s.cache, id)
  {
    var d := Db.Store(s.db, u, dbFault);
    if d.err.Some? then Stored(Stores(d.table, s.cache), d.user, d.err)
    else
      var w := Cache.Store(s.cache, d.user, cacheSetFails);
      Stored(Stores(d.table, w.cache), d.user, None)
  }

  /** `GetByID`: the cache first; on any cache error the table answers. The
      table's answer is not written back to the cache. */
  function GetByID(s: Stores, id: int, cacheGetFails: bool, dbFails: bool): (r: Read)
    // no store is written
    ensures r.stores == s
    // a cache hit is returned as it is, whatever the table would say
    ensures !cacheGetFails && HasUser(s.cache, id) ==> r.reply == Reply(CachedUser(s.cache, id), None)
    // on any cache error (failure, miss, bad payload) the table answers
    ensures cacheGetFails || !HasUser(s.cache, id) ==>
      && (r.reply.err.None? <==> !dbFails && id in s.db.rows)
      && (r.reply.err.None? ==> r.reply.user == s.db.rows[id])
    // only when both stores fail is the answer an error, with the zero user
    ensures r.reply.err.Some? ==> IsFailure(r.reply) && (dbFails || id !in s.db.rows)
  {
    var c := Cache.GetByID(s.cache, id, cacheGetFails);
    if c.err.None? then Read(s, c)
    else
      var d := Db.GetByID(s.db, id, dbFails);
      if d.err.Some? then Read(s, Reply(Empty, d.err)) else Read(s, d)
  }

  /** `GetByUsername`: answered by the table alone. */
  function GetByUsername(s: Stores, fold: Db.Collation, name: string, dbFails: bool): (r: Read)
    ensures r.stores == s
    ensures r.reply.err.None? ==> !dbFails && Db.Matches(fold, r.reply.user, name) && r.reply.user in s.db.rows.Values
    ensures r.reply.err.Some? ==> IsFailure(r.reply)
    ensures Db.WellFormed(s.db) ==>
      (r.reply.err.None? <==> !dbFails && exists id :: id in s.db.rows && Db.Matches(fold, s.db.rows[id], name))
    ensures Db.WellFormed(s.db) && !dbFails ==>
      forall id :: Db.FirstMatch(s.db, fold, name, id) ==> r.reply == Reply(s.db.rows[id], None)
  {
    Read(s, Db.GetByUsername(s.db, fold, name, dbFails))
  }

  /** `UpdateNickname`: the cache first (which refuses an id it does not
      hold), then the table; either failure is returned. */
  function UpdateNickname(s: Stores, id: int, nickname: string,
                          cacheGetFails: bool, cacheSetFails: bool, dbFault: Option<Db.UpdateStep>): (r: Written)
    ensures r.err.None? <==> !cacheGetFails && !cacheSetFails && HasUser(s.cache, id) && dbFault.None?
    // a cache failure, including an id the cache does not hold, leaves both stores untouched
    ensures cacheGetFails || cacheSetFails || !HasUser(s.cache, id) ==> r.stores == s && r.err.Some?
    // the table is written only after the cache update succeeded
    ensures r.stores.db != s.db ==> r.err.None?
    // once the cache update succeeded the cache holds the new nickname, even if the table then fails
    ensures Cache.Aligned(s.cache) && HasUser(s.cache, id) && !cacheGetFails && !cacheSetFails ==>
      && HasUser(r.stores.cache, id)
      && CachedUser(r.stores.cache, id) == CachedUser(s.cache, id).(nickname := Valid(nickname))
      && (dbFault.Some? ==> r.err.Some? && r.stores.db == s.db)
    ensures r.err.None? && id in s.db.rows ==>
      id in r.stores.db.rows && r.stores.db.rows[id] == s.db.rows[id].(nickname := Valid(nickname))
    // no other row and, for an aligned cache, no other entry changes
    ensures r.stores.db.rows.Keys == s.db.rows.Keys
    ensures forall other :: other in s.db.rows && other != id ==> r.stores.db.rows[other] == s.db.rows[other]
    ensures Cache.Aligned(s.cache) ==>
      forall other :: other != id ==> Cache.Entry(r.stores.cache, other) == Cache.Entry(s.cache, other)
  {
    var w := Cache.UpdateNickname(s.cache, id, nickname, cacheGetFails, cacheSetFails);
    if w.err.Some? then Written(s, w.err)
    else
      var d := Db.UpdateNickname(s.db, id, nickname, dbFault);
      Written(Stores(d.table, w.cache), d.err)
  }

  /** `UpdateProfileImage`: the same order and failure handling as `UpdateNickname`. */
  function UpdateProfileImage(s: Stores, id: int, image: string,
                              cacheGetFails: bool, cacheSetFails: bool, dbFault: Option<Db.UpdateStep>): (r: Written)
    ensures r.err.None? <==> !cacheGetFails && !cacheSetFails && HasUser(s.cache, id) && dbFault.None?
    ensures cacheGetFails || cacheSetFails || !HasUser(s.cache, id) ==> r.stores == s && r.err.Some?
    ensures r.stores.db != s.db ==> r.err.None?
    ensures Cache.Aligned(s.cache) && HasUser(s.cache, id) && !cacheGetFails && !cacheSetFails ==>
      && HasUser(r.stores.cache, id)
      && CachedUser(r.stores.cache, id) == CachedUser(s.cache, id).(profileImage := Valid(image))
      && (dbFault.Some? ==> r.err.Some? && r.stores.db == s.db)
    ensures r.err.None? && id in s.db.rows ==>
      id in r.stores.db.rows && r.stores.db.rows[id] == s.db.rows[id].(profileImage := Valid(image))
    // no other row and, for an aligned cache, no other entry changes
    ensures r.stores.db.rows.Keys == s.db.rows.Keys
    ensures forall other :: other in s.db.rows && other != id ==> r.stores.db.rows[other] == s.db.rows[other]
    ensures Cache.Aligned(s.cache) ==>
      forall other :: other != id ==> Cache.Entry(r.stores.cache, other) == Cache.Entry(s.cache, other)
  {
    var w := Cache.UpdateProfileImage(s.cache, id, image, cacheGetFails, cacheSetFails);
    if w.err.Some? then Written(s, w.err)
    else
      var d := Db.UpdateProfileImage(s.db, id, image, dbFault);
      Written(Stores(d.table, w.cache), d.err)
  }

  /** `ValidateUserPassword`: look the user up by name, then let the password
      check (bcrypt, an oracle here) compare the stored hash with the password;
      its error is returned as it is. */
  function ValidateUserPassword(s: Stores, fold: Db.Collation, name: string, password: string, dbFails: bool,
                                verify: (string, string) -> Option<Error>): (r: Reply)
    ensures r.err.None? ==>
      && !dbFails && Db.Matches(fold, r.user, name) && r.user in s.db.rows.Values
      && verify(r.user.password, password).None?
    ensures r.err.Some? ==> IsFailure(r)
    // a failed username query is an error, with the zero user
    ensures dbFails ==> r == Reply(Empty, Some(StoreFailure))
    ensures Db.WellFormed(s.db) && !dbFails && (forall id :: id in s.db.rows ==> !Db.Matches(fold, s.db.rows[id], name)) ==>
      r.err == Some(NoRows)
    // the first matching row decides: the user when the password check accepts, else the check's error
    ensures Db.WellFormed(s.db) && !dbFails ==>
      forall id :: Db.FirstMatch(s.db, fold, name, id) ==>
        && (verify(s.db.rows[id].password, password).None? ==> r == Reply(s.db.rows[id], None))
        && (verify(s.db.rows[id].password, password).Some? ==>
              r == Reply(Empty, verify(s.db.rows[id].password, password)))
  {
    var found := GetByUsername(s, fold, name, dbFails).reply;
    if found.err.Some? then Reply(Empty, found.err)
    else match verify(found.user.password, password)
      case Some(e) => Reply(Empty, Some(e))
      case None => found
  }

  /** `Store` keeps both stores consistent, and never puts the cache ahead of the table. */
  lemma StorePreservesConsistency(s: Stores, u: User, dbFault: Option<Db.InsertStep>, cacheSetFails: bool)
    requires Consistent(s)
    ensures Consistent(Store(s, u, dbFault, cacheSetFails).stores)
    ensures Mirrors(s) ==> Mirrors(Store(s, u, dbFault, cacheSetFails).stores)
  {
  }

  /** An update keeps both stores consistent; when it succeeds the cache is
      still not ahead of the table. */
  lemma UpdateNicknamePreservesConsistency(s: Stores, id: int, nickname: string,
                                           cacheGetFails: bool, cacheSetFails: bool, dbFault: Option<Db.UpdateStep>)
    requires Consistent(s)
    ensures var r := UpdateNickname(s, id, nickname, cacheGetFails, cacheSetFails, dbFault);
      && Consistent(r.stores)
      && (Mirrors(s) && r.err.None? ==> Mirrors(r.stores))
  {
  }

  /** The same for `UpdateProfileImage`. */
  lemma UpdateProfileImagePreservesConsistency(s: Stores, id: int, image: string,
                                               cacheGetFails: bool, cacheSetFails: bool, dbFault: Option<Db.UpdateStep>)
    requires Consistent(s)
    ensures var r := UpdateProfileImage(s, id, image, cacheGetFails, cacheSetFails, dbFault);
      && Consistent(r.stores)
      && (Mirrors(s) && r.err.None? ==> Mirrors(r.stores))
  {
  }

  /** A created user reads back by its new id, with the fields it was created
      with, whether or not the cache write failed and whether the cache or the
      table answers the read. */
  lemma StoreThenGetByID(s: Stores, u: User, cacheSetFails: bool, cacheGetFails: bool)
    requires Consistent(s) && s.db.nextId <= Db.MaxId
    ensures var r := Store(s, u, None, cacheSetFails);
      && r.err.None?
      && GetByID(r.stores, r.user.id, cacheGetFails, false).reply == Reply(u.(id := s.db.nextId), None)
  {
  }

  /** After a successful nickname update, a read of that id gives the new
      nickname whichever store answers it. */
  lemma UpdateNicknameThenGetByID(s: Stores, id: int, nickname: string, cacheGetFails: bool, dbFails: bool)
    requires Consistent(s)
    requires UpdateNickname(s, id, nickname, false, false, None).err.None?
    requires !(cacheGetFails && dbFails)
    ensures var r := UpdateNickname(s, id, nickname, false, false, None);
      var read := GetByID(r.stores, id, cacheGetFails, dbFails).reply;
      read.err.None? && read.user.nickname == Valid(nickname)
  {
  }

  /** The cache can end up ahead of the table: when the cache update succeeds
      and the table update then fails, the call reports an error, yet every
      later read served by the cache returns the nickname the table never got. */
  lemma FailedTableUpdateLeavesCacheAhead(s: Stores, id: int, nickname: string)
    requires Consistent(s) && Mirrors(s)
    requires HasUser(s.cache, id) && s.db.rows[id].nickname != Valid(nickname)
    ensures var r := UpdateNickname(s, id, nickname, false, false, Some(Db.UpdateExec));
      && r.err.Some?
      && r.stores.db == s.db
      && GetByID(r.stores, id, false, false).reply.user.nickname == Valid(nickname)
      && !Mirrors(r.stores)
  {
  }

  /** Username lookups never depend on the cache. */
  lemma GetByUsernameIgnoresCache(s: Stores, other: Cache.Cache, fold: Db.Collation, name: string, dbFails: bool)
    ensures GetByUsername(s, fold, name, dbFails).reply == GetByUsername(s.(cache := other), fold, name, dbFails).reply
  {
  }

  /** Registration then login: a user stored under a username that matches
      no earlier row under the collation, with a password the check accepts,
      logs in as the stored user with its new id, whether or not the cache
      write failed. */
  lemma StoreThenValidateUserPassword(s: Stores, fold: Db.Collation, u: User, cacheSetFails: bool, password: string,
                                      verify: (string, string) -> Option<Error>)
    requires Consistent(s) && s.db.nextId <= Db.MaxId
    requires forall id :: id in s.db.rows ==> !Db.Matches(fold, s.db.rows[id], u.username)
    requires verify(u.password, password).None?
    ensures var r := Store(s, u, None, cacheSetFails);
      ValidateUserPassword(r.stores, fold, u.username, password, false, verify) == Reply(r.user, None)
  {
  }

  /** Registration then a wrong password: bcrypt's mismatch error reaches the
      caller as it is, with the zero user. */
  lemma StoreThenWrongPassword(s: Stores, fold: Db.Collation, u: User, cacheSetFails: bool, password: string,
                               verify: (string, string) -> Option<Error>)
    requires Consistent(s) && s.db.nextId <= Db.MaxId
    requires forall id :: id in s.db.rows ==> !Db.Matches(fold, s.db.rows[id], u.username)
    requires verify(u.password, password) == Some(PasswordMismatch)
    ensures var r := Store(s, u, None, cacheSetFails);
      ValidateUserPassword(r.stores, fold, u.username, password, false, verify) == Reply(Empty, Some(PasswordMismatch))
  {
  }
}

=== FILE: wrappers.dfy ===
/** The optional value used for Go's nil-able results (an `error` that may be nil,
    a lookup that may find nothing). */
module Wrappers {

  datatype Option<+T> = None | Some(value: T)
}
